=== FILE: README.md ===
# Course management: grades, final grades and role checks

A Dafny model of the decision logic in a small Django course-management
application. Instructors define weighted evaluation components for their
courses and enter grades through one table form. Students see, for each
enrolled course, their scores and a weighted final grade. A role stored in
each user's profile picks the dashboard a user lands on, and two decorators
guard the instructor and student views.

The model is functional. The database is an immutable `Schema.Store`:
- users;
- profiles, one role string per user;
- courses with their instructors and students;
- evaluation components, kept in ascending id order;
- grade rows, a map from (student id, component id) to an optional score.

A map key is the `unique_together` pair, so at most one row per pair holds
by construction. Scores are integers in hundredths of a point. A weighted
share `score × percentage / 100` is kept exactly as an integer in
ten-thousandths, then quantized to hundredths.

Modules:
- `Wrappers`: `Option`.
- `Text`: what the code relies on from Python's `str.split`, `str.strip`,
  `int()` and `Decimal()`: splitting and joining on a separator, stripping
  whitespace, digit strings, signed integers, decimal literals and the
  two-place rendering of a score.
- `Rounding`: quantization to a multiple of `d` with ties going to the even
  multiple. This is the rounding mode of Python's default decimal context.
- `Schema`: the tables and the constraints the models declare (`Valid`),
  the post-save hook that gives a new user a `student` profile, and the
  cascading deletes.
- `Access`: `dashboard_redirect` and the `user_is_instructor` /
  `user_is_student` decorators as decision functions.
- `PostData`: how the view iterates a posted form with `items()`. Each
  distinct field name comes once, in order of first appearance, with the
  last value posted under it.
- `GradeEntry`: the `submit_grades` loop, a fold of posted `(name, value)`
  fields into the grade rows.
- `ManageCourse`: the POST side of `manage_course`: the course lookup, the
  limit on the number of posted fields, the choice of branch by submit
  button, and the two branches that change the store, which are adding a
  component and submitting grades.
- `GradeTable`: the student × component table shown to instructors.
- `FinalGrade`: the student dashboard's per-course report and final grade.
- `Walkthrough`: a worked course, from grade entry to dashboard.

Three consequences of the code as written, each stated by a lemma:
- The final grade is quantized half-to-even, because `Decimal.quantize`
  under the default context does that: an exact tie such as 0.025 becomes
  0.02, not 0.03 (`FinalGrade.WorkedExamples`).
- A cell whose save fails can still leave a new, ungraded row for its pair,
  because `get_or_create` commits the row before the failing `save`
  (`GradeEntry.Upsert`, `GradeEntry.FailedCellIsolated`).
- Grade field names are not checked against the course being managed. An
  instructor's submission can write grades of any existing component
  (`ManageCourse.GradesNotConfinedToCourse`).

## Model

| member | source | states |
|---|---|---|
| Schema.ParseRole | course_management/models.py:11-16 | A role string parses exactly when it is the stored name of a declared choice (`student`, `instructor` or `department_head`), and then it parses to that choice |
| Schema.CreateUser | course_management/signals.py:12-15 | A new user gets a fresh id and a profile whose role is `student`. Only the users, the profiles and the next user id change, and the schema constraints still hold |
| Schema.DeleteUser | course_management/models.py:83-89 | Deleting a user removes exactly that user, the user's profile, the user's memberships in every course and the user's grade rows. Components, other profiles, course codes and names, other memberships and other rows' scores are unchanged, and the constraints are preserved |
| Schema.DeleteComponent | course_management/models.py:90-95 | Deleting a component removes it and exactly the grade rows that reference it. Users, profiles, courses, the other components and every other row are unchanged, and the constraints are preserved |
| Schema.DeleteCourse | course_management/models.py:52-53 | Deleting a course removes exactly that course, its components and the grade rows of its components. Users, profiles, other courses, other components and every other row are unchanged, and the constraints are preserved |
| Schema.ComponentsOf | course_management/views.py:59 | The course's component list holds exactly the components of that course, in ascending id order |
| Schema.ScoreOf | course_management/views.py:117 | A grade lookup yields a score exactly when a row exists and its score is not null, and then it yields the stored score |
| Schema.ProfileRole | course_management/views.py:22-24 | The role is present exactly when the user has a profile, and it is the profile's stored role; in a valid store it is a declared role |
| Access.DashboardRedirect | course_management/views.py:16-37 | Anonymous users go to login. Otherwise the user goes to the instructor dashboard iff the role is `instructor`, to the student dashboard iff it is `student`, and to the admin index iff it is `department_head` or there is no profile and the user is a superuser. With a profile, the user goes to login iff the role is not a declared one |
| Access.DashboardRedirectByRole | course_management/views.py:30-35 | A signed-in user with a declared role lands on that role's dashboard, whatever the superuser flag |
| Access.RoleGate | course_management/decorators.py:12-27 | A role guard redirects iff the request is anonymous, and runs the view iff the user is signed in with exactly the required role |
| Access.UserIsInstructor | course_management/decorators.py:6-29 | Anonymous requests are redirected to login. The view runs iff the user is signed in with role `instructor`; every other signed-in request, with or without a profile, is refused with permission denied |
| Access.UserIsStudent | course_management/decorators.py:32-52 | The same three-way decision for role `student` |
| Access.AuthenticationFirst | course_management/decorators.py:13-19 | For an anonymous request both guards redirect to login, whatever profile the user has |
| Access.GuardsExclusive | course_management/decorators.py:19-43 | No request passes both guards |
| Access.ProfilelessSuperuser | course_management/decorators.py:25-27 | A signed-in superuser without a profile is sent to the admin index by the redirect, but both guards refuse it |
| Access.RedirectAgreesWithGuards | course_management/views.py:30-33 | For a signed-in user, the redirect targets the instructor (student) dashboard exactly when the instructor (student) guard admits the user |
| Access.ValidStoreNeverBouncesProfiles | course_management/models.py:11-16 | In a store whose roles are all declared, a signed-in user with a profile is never redirected to login |
| Access.NewUserIsStudent | course_management/signals.py:12-15 | A freshly created user is redirected to the student dashboard, admitted by the student guard and refused by the instructor guard |
| Text.Split | course_management/views.py:85 | Splitting yields one more piece than there are separators, and no piece contains the separator |
| Text.JoinOfSplit | course_management/views.py:85 | Joining the pieces of a split with the separator gives back the original string |
| Text.SplitOfJoin | course_management/views.py:85 | Splitting the join of separator-free pieces gives back the pieces |
| Text.ParseIntOfNatToString | course_management/views.py:87-90 | An id written in decimal is read back as that id |
| Text.Strip | course_management/forms.py:9-12 | The name field's cleaning: the result is no longer than the input and has no whitespace at either end |
| Text.StripOfPadded | course_management/forms.py:9-12 | Stripping removes exactly the surrounding whitespace: any whitespace padding around a text without whitespace at its ends strips back to that text |
| Text.StripIdempotent | course_management/forms.py:9-12 | Stripping an already stripped name changes nothing |
| PostData.PostItemsNames | course_management/views.py:82 | The iterated fields carry every posted name exactly once, and no other name |
| PostData.PostItemsLastValue | course_management/views.py:82 | Each iterated field carries the last value posted under its name |
| PostData.PostItemsOrder | course_management/views.py:82 | The fields are iterated in order of each name's first appearance in the posted body |
| PostData.PostItemsOfDistinct | course_management/views.py:82 | A body without repeated names is iterated exactly as posted |
| Text.ParseDecimalOfFormat | course_management/models.py:96-99 | The two-place rendering of a score in hundredths parses to the decimal with that coefficient and two places |
| Rounding.RoundHalfEven | course_management/views.py:170 | The result is a nearest multiple of `d`, and on an exact tie it is the even one |
| Rounding.RoundHalfEvenUnique | course_management/views.py:170 | Any nearest, tie-to-even multiple equals the computed one, so the rounding is fully determined |
| Rounding.RoundHalfEvenMonotone | course_management/views.py:170 | Rounding never reverses the order of two amounts |
| Rounding.RoundHalfEvenExact | course_management/views.py:170 | An amount that is already a multiple of `d` is left as it is |
| Rounding.RoundHalfEvenBounds | course_management/views.py:170 | A bound that is a multiple of `d` and holds before rounding still holds after it |
| GradeEntry.ParseGradeKey | course_management/views.py:83-85 | A field addresses a pair only if its name starts with `grade_` and contains exactly two underscores |
| GradeEntry.ParseGradeKeyShape | course_management/views.py:83-85 | An accepted name is `grade_` + a + `_` + b, with a and b underscore-free and read by `int()` as the student and component ids |
| GradeEntry.ParseGradeKeyOfShape | course_management/views.py:83-85 | Conversely, every name of that shape whose pieces read as integers addresses exactly that pair |
| GradeEntry.GradeFieldNameRoundTrip | course_management/views.py:85 | The field name generated for (student, component) parses back to that pair |
| GradeEntry.CleanScore | course_management/models.py:96-103 | A blank value means ungraded and nothing else does. A value `Decimal()` cannot read is rejected. A readable value is stored exactly when its nearest hundredth (ties to even) has at most five digits, and then that hundredth is the stored score |
| GradeEntry.NearestHundredthUnique | course_management/models.py:96-99 | Every decimal has exactly one nearest hundredth with ties to even, the one quantization computes |
| GradeEntry.CleanScoreExamples | course_management/models.py:96-99 | `80`, `80.5` and `80.125` are stored as 80.00, 80.50 and 80.12; `1000` (too many digits) and `8o` (not a decimal) are rejected |
| GradeEntry.CleanScoreOfFormat | course_management/models.py:96-99 | A score typed with two places is stored exactly |
| GradeEntry.Upsert | course_management/views.py:87-92 | Writing a cell touches only its pair's row. If the pair has no row and its student or its component does not exist, nothing changes. Otherwise a clean value is stored; a rejected value keeps an existing row as it was, and on a new pair it leaves exactly one new ungraded row |
| GradeEntry.UpsertValid | course_management/models.py:96-109 | A cell write preserves every schema constraint |
| GradeEntry.ApplyCell | course_management/views.py:83-94 | Processing one field changes only grade rows, never removes a row and preserves the constraints |
| GradeEntry.ApplyBatch | course_management/views.py:82-94 | Folding a whole form changes only grade rows, never removes a row and preserves the constraints |
| GradeEntry.ApplyBatchAppend | course_management/views.py:82 | Fields are processed one after another: a form split in two is the second part applied after the first |
| GradeEntry.UntouchedRowKept | course_management/views.py:82-94 | A pair no field addresses keeps its row and score if it has one, and gains no row if it has none |
| GradeEntry.LastWriteWins | course_management/views.py:87-92 | When the last field addressing an existing pair carries a clean value, the row ends up holding that value |
| GradeEntry.LaterBatchWins | course_management/views.py:87-92 | A later submission's clean value overrides whatever an earlier submission wrote for the pair |
| GradeEntry.IgnoredFieldIsNoOp | course_management/views.py:83-85 | A field whose name does not address a pair has no effect anywhere in the batch |
| GradeEntry.FailedCellIsolated | course_management/views.py:84-94 | A field whose value is rejected does not change the other fields' outcomes. The only trace it can leave is an ungraded row for its own pair |
| GradeEntry.TypedScoreStored | course_management/views.py:86-92 | Typing a two-place score into the cell of an existing student and component stores exactly that score |
| ManageCourse.InstructorCourse | course_management/views.py:58 | The course is found iff it exists and the requester is one of its instructors |
| ManageCourse.SubmitGrades | course_management/views.py:81-95 | The grade branch once `ManagePost` has chosen it. A foreign or missing course yields not found. Otherwise the form's items are folded into the store: each posted name once, with its last value, in order of first appearance. The constraints are preserved |
| ManageCourse.ManagePost | course_management/views.py:57-95 | Not found iff the course is not the instructor's. Otherwise a body of more than 1000 fields is a bad request. Otherwise `submit_evaluation` wins: the component form is read from the last `name` and `percentage` values, and the grade rows are untouched. Failing that, `submit_outcome` takes the outcome branch, then `submit_grades` folds the form's items into the grade rows without touching the components. With none of the three buttons nothing is saved. A save preserves the constraints |
| ManageCourse.SubmitButtonIgnored | course_management/views.py:81-95 | Posting the grade form's own button with the cells saves exactly what the grade branch saves for the cells alone |
| ManageCourse.IntegerFieldReadsNumeral | course_management/models.py:55 | The percentage field reads a whole number as itself, whether or not it is padded with whitespace or followed by a point and zeros |
| ManageCourse.IntegerFieldRejectsFraction | course_management/models.py:55 | A fraction that is not zero, such as `40.5`, does not read as an integer |
| ManageCourse.IntegerFieldRejectsText | course_management/models.py:55 | Text that is not a number, such as `4o`, does not read as an integer |
| ManageCourse.RepeatedFieldTakesLastValue | course_management/views.py:82-92 | Posting a field name twice is the same as posting only its later value; the earlier value is never written |
| ManageCourse.AddComponent | course_management/views.py:65-71 | The name is first stripped of surrounding whitespace. Not found iff the course is not the instructor's. Form invalid iff the stripped name is empty, longer than 100 characters or holds a NUL, or the percentage text does not read as an integer in 0..32767. Integrity error iff the stripped name is already used in the course. Otherwise the component is saved under the stripped name, with the percentage as read and the next id, and appended to the course's list; other courses' lists are unchanged and the constraints are preserved |
| ManageCourse.AddComponentValid | course_management/models.py:57-61 | Appending a form-valid component with a fresh id and an unused name keeps ids ascending and names unique per course |
| ManageCourse.SubmitTypedCell | course_management/views.py:81-95 | Submitting one typed score for an existing student and component saves exactly that score |
| ManageCourse.GradesNotConfinedToCourse | course_management/views.py:81-92 | An instructor managing one course can write a grade of another course's component that the instructor does not teach |
| GradeTable.VisibleGrades | course_management/views.py:102-106 | The fetched grade rows are exactly those of the listed students on the listed components, with their stored scores |
| GradeTable.StudentGradeRows | course_management/views.py:109-122 | The table has one row per student in the given order, each with one cell per component in order. Each cell holds the pair's stored score, or none when there is no row or the score is null |
| FinalGrade.FinalGradeOf | course_management/views.py:164-170 | The final grade is the hundredth nearest the exact weighted sum, ties to even |
| FinalGrade.UngradedAddNothing | course_management/views.py:155-165 | Dropping the ungraded components changes neither the graded weight nor the final grade |
| FinalGrade.WeightedTotalBounds | course_management/views.py:164-165 | With scores in [0, 100] and non-negative weights, the exact sum lies between 0 and the graded weight |
| FinalGrade.FinalGradeWithinGradedWeight | course_management/views.py:164-170 | With scores in [0, 100], the final grade lies between 0 and the sum of graded percentages; it is not rescaled |
| FinalGrade.ContributionMonotone | course_management/views.py:164-165 | Raising a score, or grading an ungraded component with a non-negative score, never lowers its share |
| FinalGrade.WeightedTotalMonotone | course_management/views.py:155-165 | Entry by entry better scores give a sum no smaller |
| FinalGrade.FinalGradeMonotone | course_management/views.py:155-170 | Entry by entry better scores give a final grade no lower |
| FinalGrade.WorkedExamples | course_management/views.py:155-170 | Midterm 40% at 80 with the Final ungraded gives 32.00; with the Final 60% at 90 it gives 86.00. A 50% component at 0.05 gives 0.02 and at 0.15 gives 0.08 |
| FinalGrade.GradedScores | course_management/views.py:147-152 | The score map holds exactly the listed components with a non-null score for the student, with the stored scores |
| FinalGrade.LookupAgrees | course_management/views.py:152-162 | Looking a component up in the score map gives the component's stored score, or none |
| FinalGrade.ReportOf | course_management/views.py:145-171 | A course report lists one entry per component of the course in id order: name, percentage and the student's score. Its final grade is the rounded weighted sum of those entries |
| FinalGrade.BuildCourseReport | course_management/views.py:146-171 | The loop over components builds exactly the course report |
| FinalGrade.StudentDashboard | course_management/views.py:142-171 | One report per enrolled course, in the order given, and every enrolled course is reported |
| FinalGrade.EveryCourseReported | course_management/views.py:142-145 | When the course list is exactly the student's enrolments, every enrolled course has a report |
| Walkthrough.MidtermThenFinal | course_management/views.py:57-170 | In a course with Midterm 40% and Final 60%, posting the grade form with 80.00 for the Midterm gives a 32.00 final grade. Then posting it with 90.00 for the Final gives 86.00 |

## Left out

- Templates, `render`, `redirect` and URL routing: destinations are the `Access.Destination` and `ManageCourse.ManageOutcome` values. A successful POST's redirect back to the page is the `Saved` outcome.
- `login_required` sends anonymous users to the configured login URL. Here that is the same `LoginPage` destination as the `login` route.
- The ORM, transactions and concurrent requests: each view runs alone against one store value. Races between two submissions are not modelled.
- What the `submit_outcome` branch of `manage_course` does (it is only the `OutcomeBranch` outcome here), learning outcomes, program outcomes and syllabus text: free-text storage with no decision logic.
- The GET side of `manage_course` beyond the grade table (empty forms and the outcome list), and `instructor_dashboard`'s course query: these only list what is stored.
- Department-head course creation and assignment: no view exists for it, and the role is only sent to the admin index.
- The admin site and the form widgets and labels. Of the component form, the field checks are modelled (`ManageCourse.ComponentFormValid`): the name is stripped, then must be non-empty, at most 100 characters and free of NUL characters.
- ManageCourse.IntegerFieldValue: reads the percentage text as Django's integer form field does, through `Text.ParseInt`, so it shares that function's limits listed below.
- The ordering of students by last and first name: users have no names here, and `GradeTable.StudentGradeRows` takes the student list in the order given.
- The enrolment query's order of courses: `FinalGrade.StudentDashboard` takes the course list in the order given.
- `limit_choices_to` on course members and grade students: it only filters admin choices, and the database does not enforce it.
- Role choices are not enforced by the database either. `Schema.Valid` demands a declared role, while `Access.DashboardRedirect` still handles any role string as the code does.
- Text.ParseInt: covers an optional sign followed by ASCII digits. It does not model surrounding whitespace, underscores between digits or non-ASCII digits, all of which Python's `int()` also accepts.
- Text.ParseDecimal: covers an optional sign, digits and at most one decimal point. It does not model exponents, `NaN`, `Infinity`, surrounding whitespace, underscores between digits or non-ASCII digits, all of which Python's `Decimal()` also accepts.
- GradeEntry.CleanScore: an accepted value is rounded to two places and refused when it needs more than five digits. When the database adapter rounds or refuses depends on the Django version and the database engine. A refused value is an error caught by the loop, like any other failed save.
- FinalGrade.FinalGradeOf: Python's 28-digit decimal context can round intermediate products. Scores of at most five digits times percentages below 32768 never reach that precision, so exact integers are used.
- Aborted transactions after a database error inside the loop are not modelled. On databases that abort the surrounding transaction, later cells of the same form would also fail.
- ManageCourse.ManagePost: assumes Django's default settings, as the project's settings file is not part of this model. The 2.5 MB limit on the size of the body is not modelled. Neither is CSRF checking, whose middleware may read the body before the view runs, so that an oversized body to a foreign course can be a bad request rather than not found.

=== FILE: access.dfy ===
/** Where a signed-in user is sent after login, and the two decorators that
    guard the instructor and student views. A request is reduced to what
    these decisions read: whether the user is authenticated, whether the
    user is a superuser, and the role string of the user's profile (`None`
    when the user has no profile). */
module Access {
  import opened Wrappers
  import opened Schema

  datatype Requester = Requester(
    authenticated: bool,
    superuser: bool,
    profileRole: Option<string>)

  /** The named routes a redirect can target. `LoginPage` is the login entry
      point, both the route named `login` and the page the login-required
      decorator sends anonymous users to. */
  datatype Destination = InstructorDashboard | StudentDashboard | AdminIndex | LoginPage

  /** The dashboard a declared role belongs to. */
  function HomeOf(r: Role): Destination {
    match r
    case Instructor => InstructorDashboard
    case Student => StudentDashboard
    case DepartmentHead => AdminIndex
  }

  /** The dashboard redirect view behind its login-required decorator. */
  function DashboardRedirect(u: Requester): (d: Destination)
    ensures !u.authenticated ==> d == LoginPage
    ensures d == InstructorDashboard <==> u.authenticated && u.profileRole == Some("instructor")
    ensures d == StudentDashboard <==> u.authenticated && u.profileRole == Some("student")
    ensures d == AdminIndex <==>
      u.authenticated
      && (u.profileRole == Some("department_head") || (u.profileRole.None? && u.superuser))
    ensures u.authenticated && u.profileRole.Some? ==>
      (d == LoginPage <==> ParseRole(u.profileRole.value).None?)
  {
    if !u.authenticated then LoginPage
    else match u.profileRole
      case None => if u.superuser then AdminIndex else LoginPage
      case Some(role) =>
        if role == "instructor" then InstructorDashboard
        else if role == "student" then StudentDashboard
        else if role == "department_head" then AdminIndex
        else LoginPage
  }

  /** A signed-in user with a declared role lands on that role's dashboard,
      whatever the superuser flag says. */
  lemma DashboardRedirectByRole(u: Requester, r: Role)
    requires u.authenticated && u.profileRole == Some(RoleName(r))
    ensures DashboardRedirect(u) == HomeOf(r)
  {
  }

  /** What a role-guarding decorator does with a request. */
  datatype GateResult = RedirectToLogin | RunView | PermissionDenied

  /** The decorator pattern shared by both guards: authentication first, then
      an exact comparison of the profile's role with the required one; a
      missing profile is refused like a wrong role. */
  function RoleGate(required: Role, u: Requester): (g: GateResult)
    ensures !u.authenticated <==> g == RedirectToLogin
    ensures g == RunView <==> u.authenticated && u.profileRole == Some(RoleName(required))
  {
    if !u.authenticated then RedirectToLogin
    else match u.profileRole
      case None => PermissionDenied
      case Some(role) => if role == RoleName(required) then RunView else PermissionDenied
  }

  /** The instructor guard. */
  function UserIsInstructor(u: Requester): (g: GateResult)
    ensures !u.authenticated ==> g == RedirectToLogin
    ensures g == RunView <==> u.authenticated && u.profileRole == Some("instructor")
    ensures g == PermissionDenied <==> u.authenticated && u.profileRole != Some("instructor")
  {
    RoleGate(Instructor, u)
  }

  /** The student guard. */
  function UserIsStudent(u: Requester): (g: GateResult)
    ensures !u.authenticated ==> g == RedirectToLogin
    ensures g == RunView <==> u.authenticated && u.profileRole == Some("student")
    ensures g == PermissionDenied <==> u.authenticated && u.profileRole != Some("student")
  {
    RoleGate(Student, u)
  }

  /** Authentication is decided before the profile is looked at: an anonymous
      request is redirected whatever profile it would have had. */
  lemma AuthenticationFirst(u: Requester, other: Option<string>)
    requires !u.authenticated
    ensures UserIsInstructor(u) == UserIsInstructor(u.(profileRole := other)) == RedirectToLogin
    ensures UserIsStudent(u) == UserIsStudent(u.(profileRole := other)) == RedirectToLogin
  {
  }

  /** No request passes both guards. */
  lemma GuardsExclusive(u: Requester)
    ensures !(UserIsInstructor(u) == RunView && UserIsStudent(u) == RunView)
  {
  }

  /** A superuser without a profile is sent to the admin index by the
      dashboard redirect, yet both guards refuse it. */
  lemma ProfilelessSuperuser(u: Requester)
    requires u.authenticated && u.superuser && u.profileRole.None?
    ensures DashboardRedirect(u) == AdminIndex
    ensures UserIsInstructor(u) == PermissionDenied
    ensures UserIsStudent(u) == PermissionDenied
  {
  }

  /** The redirect and the guards agree: a signed-in user is redirected to
      the instructor (student) dashboard exactly when the instructor
      (student) guard lets the user through. */
  lemma RedirectAgreesWithGuards(u: Requester)
    requires u.authenticated
    ensures DashboardRedirect(u) == InstructorDashboard <==> UserIsInstructor(u) == RunView
    ensures DashboardRedirect(u) == StudentDashboard <==> UserIsStudent(u) == RunView
  {
  }

  /** The request of a user as the store sees it. */
  function RequesterOf(st: Store, user: UserId, authenticated: bool, superuser: bool): (u: Requester)
    ensures u.profileRole == ProfileRole(st, user)
  {
    Requester(authenticated, superuser, ProfileRole(st, user))
  }

  /** In a valid store a signed-in user with a profile is never bounced to
      the login page: every stored role is a declared one. */
  lemma ValidStoreNeverBouncesProfiles(st: Store, user: UserId, superuser: bool)
    requires Valid(st) && user in st.profiles
    ensures DashboardRedirect(RequesterOf(st, user, true, superuser)) != LoginPage
  {
  }

  /** A freshly created user is a student: the redirect sends them to the
      student dashboard, the student guard admits them and the instructor
      guard refuses them. */
  lemma NewUserIsStudent(st: Store, superuser: bool)
    requires Valid(st)
    ensures var (st', user) := CreateUser(st);
      var u := RequesterOf(st', user, true, superuser);
      && DashboardRedirect(u) == StudentDashboard
      && UserIsStudent(u) == RunView
      && UserIsInstructor(u) == PermissionDenied
  {
  }
}

=== FILE: final_grade.dfy ===
/** The student dashboard: for every course the student is enrolled in, the
    course's components in id order with the student's score on each, and a
    final grade. The final grade is the sum, over the components that have a
    score, of score × percentage / 100, computed exactly and then quantized
    to two decimal places with ties going to the even hundredth. Ungraded
    components add nothing and the sum is not rescaled to the weight actually
    graded. */
module FinalGrade {
  import opened Wrappers
  import opened Rounding
  import opened Schema

  datatype ReportEntry = ReportEntry(name: string, percentage: int, score: Option<Hundredths>)
  datatype CourseReport = CourseReport(course: CourseId, entries: seq<ReportEntry>, finalGrade: Hundredths)

  /** An entry's share of the final grade, in ten-thousandths of a point
      (hundredths of a point times a whole percentage). */
  function Contribution(e: ReportEntry): int {
    if e.score.Some? then e.score.value * e.percentage else 0
  }

  /** The exact weighted sum, in ten-thousandths of a point. */
  function WeightedTotal(entries: seq<ReportEntry>): int
    decreases |entries|
  {
    if |entries| == 0 then 0
    else WeightedTotal(entries[..|entries| - 1]) + Contribution(entries[|entries| - 1])
  }

  /** The summed percentages of the graded entries. */
  function GradedWeight(entries: seq<ReportEntry>): int
    decreases |entries|
  {
    if |entries| == 0 then 0
    else
      var last := entries[|entries| - 1];
      GradedWeight(entries[..|entries| - 1]) + (if last.score.Some? then last.percentage else 0)
  }

  /** The final grade in hundredths: the hundredth nearest to the exact sum,
      the even one on a tie. */
  function FinalGradeOf(entries: seq<ReportEntry>): (g: Hundredths)
    ensures 2 * Abs(WeightedTotal(entries) - g * 100) <= 100
    ensures 2 * Abs(WeightedTotal(entries) - g * 100) == 100 ==> g % 2 == 0
  {
    RoundHalfEven(WeightedTotal(entries), 100)
  }

  /** The graded entries only. */
  function GradedOnly(entries: seq<ReportEntry>): seq<ReportEntry>
    decreases |entries|
  {
    if |entries| == 0 then []
    else
      var last := entries[|entries| - 1];
      GradedOnly(entries[..|entries| - 1]) + (if last.score.Some? then [last] else [])
  }

  /** `GradedOnly` keeps exactly the graded entries, in order. */
  lemma {:induction false} GradedOnlyMembers(entries: seq<ReportEntry>)
    ensures forall e :: e in GradedOnly(entries) <==> e in entries && e.score.Some?
    decreases |entries|
  {
    if |entries| > 0 {
      var init := entries[..|entries| - 1];
      GradedOnlyMembers(init);
      assert entries == init + [entries[|entries| - 1]];
    }
  }

  lemma SumsSnoc(entries: seq<ReportEntry>, e: ReportEntry)
    ensures WeightedTotal(entries + [e]) == WeightedTotal(entries) + Contribution(e)
    ensures GradedWeight(entries + [e]) == GradedWeight(entries) + (if e.score.Some? then e.percentage else 0)
  {
    assert (entries + [e])[..|entries|] == entries;
  }

  lemma {:induction false} GradedOnlySums(entries: seq<ReportEntry>)
    ensures WeightedTotal(GradedOnly(entries)) == WeightedTotal(entries)
    ensures GradedWeight(GradedOnly(entries)) == GradedWeight(entries)
    decreases |entries|
  {
    if |entries| > 0 {
      var init := entries[..|entries| - 1];
      var last := entries[|entries| - 1];
      GradedOnlySums(init);
      assert entries == init + [last];
      SumsSnoc(init, last);
      if last.score.Some? {
        assert GradedOnly(entries) == GradedOnly(init) + [last];
        SumsSnoc(GradedOnly(init), last);
      } else {
        assert GradedOnly(entries) == GradedOnly(init) + [];
        assert GradedOnly(init) + [] == GradedOnly(init);
      }
    }
  }

  /** Ungraded components add nothing: dropping them leaves the final grade,
      and the graded weight, as they are. */
  lemma UngradedAddNothing(entries: seq<ReportEntry>)
    ensures GradedWeight(GradedOnly(entries)) == GradedWeight(entries)
    ensures FinalGradeOf(GradedOnly(entries)) == FinalGradeOf(entries)
  {
    GradedOnlySums(entries);
  }

  predicate ScoresWithin(entries: seq<ReportEntry>, lo: Hundredths, hi: Hundredths) {
    forall i | 0 <= i < |entries| :: entries[i].score.Some? ==> lo <= entries[i].score.value <= hi
  }

  predicate WeightsNonNegative(entries: seq<ReportEntry>) {
    forall i | 0 <= i < |entries| :: entries[i].percentage >= 0
  }

  lemma ContributionBounds(e: ReportEntry)
    requires e.percentage >= 0
    requires e.score.Some? ==> 0 <= e.score.value <= 10000
    ensures 0 <= Contribution(e) <= (if e.score.Some? then e.percentage else 0) * 10000
  {
    if e.score.Some? {
      var s, p := e.score.value, e.percentage;
      assert (10000 - s) * p >= 0;
      assert 10000 * p - s * p == (10000 - s) * p;
    }
  }

  lemma {:induction false} WeightedTotalBounds(entries: seq<ReportEntry>)
    requires WeightsNonNegative(entries) && ScoresWithin(entries, 0, 10000)
    ensures 0 <= WeightedTotal(entries) <= GradedWeight(entries) * 10000
    decreases |entries|
  {
    if |entries| > 0 {
      var init := entries[..|entries| - 1];
      assert WeightsNonNegative(init) && ScoresWithin(init, 0, 10000) by {
        forall i | 0 <= i < |init| ensures init[i] == entries[i] { }
      }
      WeightedTotalBounds(init);
      ContributionBounds(entries[|entries| - 1]);
    }
  }

  /** With every score between 0 and 100 and no negative weight, the final
      grade lies between 0 and the sum of the graded percentages: a course
      graded on 40% of its weight reports at most 40.00. */
  lemma FinalGradeWithinGradedWeight(entries: seq<ReportEntry>)
    requires WeightsNonNegative(entries) && ScoresWithin(entries, 0, 10000)
    ensures 0 <= FinalGradeOf(entries) <= GradedWeight(entries) * 100
  {
    WeightedTotalBounds(entries);
    RoundHalfEvenBounds(WeightedTotal(entries), 100, GradedWeight(entries) * 100);
    RoundHalfEvenBounds(WeightedTotal(entries), 100, 0);
  }

  /** `b` grades each component at least as well as `a`: same components,
      and each score either newly given (not negative) or not lowered. */
  predicate NoWorse(a: seq<ReportEntry>, b: seq<ReportEntry>) {
    && |a| == |b|
    && forall i | 0 <= i < |a| ::
         && a[i].percentage == b[i].percentage >= 0
         && (a[i].score.None? ==> (b[i].score.Some? ==> b[i].score.value >= 0))
         && (a[i].score.Some? ==> b[i].score.Some? && a[i].score.value <= b[i].score.value)
  }

  lemma ContributionMonotone(x: ReportEntry, y: ReportEntry)
    requires x.percentage == y.percentage >= 0
    requires x.score.None? ==> (y.score.Some? ==> y.score.value >= 0)
    requires x.score.Some? ==> y.score.Some? && x.score.value <= y.score.value
    ensures Contribution(x) <= Contribution(y)
  {
    if x.score.Some? {
      var d := y.score.value - x.score.value;
      assert Contribution(y) - Contribution(x) == d * x.percentage;
    } else if y.score.Some? {
      assert y.score.value * y.percentage >= 0;
    }
  }

  lemma {:induction false} WeightedTotalMonotone(a: seq<ReportEntry>, b: seq<ReportEntry>)
    requires NoWorse(a, b)
    ensures WeightedTotal(a) <= WeightedTotal(b)
    decreases |a|
  {
    if |a| > 0 {
      var n := |a| - 1;
      assert NoWorse(a[..n], b[..n]) by {
        forall i | 0 <= i < n ensures a[..n][i] == a[i] && b[..n][i] == b[i] { }
      }
      WeightedTotalMonotone(a[..n], b[..n]);
      ContributionMonotone(a[n], b[n]);
    }
  }

  /** Entering or raising scores never lowers the final grade. */
  lemma FinalGradeMonotone(a: seq<ReportEntry>, b: seq<ReportEntry>)
    requires NoWorse(a, b)
    ensures FinalGradeOf(a) <= FinalGradeOf(b)
  {
    WeightedTotalMonotone(a, b);
    RoundHalfEvenMonotone(WeightedTotal(a), WeightedTotal(b), 100);
  }

  /** Worked cases: Midterm 40% scored 80 with Final 60% ungraded gives
      32.00; once the Final is scored 90 the grade is 86.00. A 50% component
      scored 0.05 gives exactly 0.025, which goes down to 0.02, while 0.15
      gives 0.075, which goes up to 0.08: ties go to the even hundredth. */
  lemma WorkedExamples()
    ensures FinalGradeOf([ReportEntry("Midterm", 40, Some(8000)), ReportEntry("Final", 60, None)]) == 3200
    ensures FinalGradeOf([ReportEntry("Midterm", 40, Some(8000)), ReportEntry("Final", 60, Some(9000))]) == 8600
    ensures FinalGradeOf([ReportEntry("Quiz", 50, Some(5))]) == 2
    ensures FinalGradeOf([ReportEntry("Quiz", 50, Some(15))]) == 8
  {
    var midterm := ReportEntry("Midterm", 40, Some(8000));
    SumsSnoc([midterm], ReportEntry("Final", 60, None));
    SumsSnoc([midterm], ReportEntry("Final", 60, Some(9000)));
    assert [midterm] == [] + [midterm];
    SumsSnoc([], midterm);
    RoundHalfEvenExact(3200, 100);
    RoundHalfEvenExact(8600, 100);
    SumsSnoc([], ReportEntry("Quiz", 50, Some(5)));
    SumsSnoc([], ReportEntry("Quiz", 50, Some(15)));
  }

  // ---------------------------------------------------------------------------
  // The report of one course

  /** The non-null scores of a student on the given components, keyed by
      component. */
  function GradedScores(st: Store, student: UserId, components: seq<Component>): (m: map<ComponentId, Hundredths>)
    ensures forall c :: c in m <==>
      (exists comp :: comp in components && comp.id == c) && ScoreOf(st.grades, (student, c)).Some?
    ensures forall c | c in m :: Some(m[c]) == ScoreOf(st.grades, (student, c))
  {
    var ids := set comp | comp in components :: comp.id;
    map c | c in ids && (student, c) in st.grades && st.grades[(student, c)].Some?
      :: st.grades[(student, c)].value
  }

  /** The entry shown for a component. */
  function EntryFor(st: Store, student: UserId, c: Component): ReportEntry {
    ReportEntry(c.name, c.percentage, ScoreOf(st.grades, (student, c.id)))
  }

  /** The report of one course, as a reference definition. */
  function ReportOf(st: Store, student: UserId, course: CourseId): (r: CourseReport)
    ensures r.course == course
    ensures |r.entries| == |ComponentsOf(st, course)|
    ensures forall i | 0 <= i < |r.entries| :: r.entries[i] == EntryFor(st, student, ComponentsOf(st, course)[i])
    ensures r.finalGrade == FinalGradeOf(r.entries)
  {
    var components := ComponentsOf(st, course);
    var entries := seq(|components|, i requires 0 <= i < |components| => EntryFor(st, student, components[i]));
    CourseReport(course, entries, FinalGradeOf(entries))
  }

  /** Looking a component up in the map of non-null scores yields the
      component's entry: a missing key and a null score both show as none. */
  lemma LookupAgrees(st: Store, student: UserId, components: seq<Component>, i: nat)
    requires i < |components|
    ensures var m := GradedScores(st, student, components);
            var c := components[i];
            ReportEntry(c.name, c.percentage, if c.id in m then Some(m[c.id]) else None)
            == EntryFor(st, student, c)
  {
    assert components[i] in components;
  }

  /** The dashboard loop body for one course: walk the components in id
      order, list each with its score, and add the graded ones' shares. */
  method BuildCourseReport(st: Store, student: UserId, course: CourseId) returns (report: CourseReport)
    ensures report == ReportOf(st, student, course)
  {
    var components := ComponentsOf(st, course);
    var gradeMap := GradedScores(st, student, components);
    var total := 0;
    var entries: seq<ReportEntry> := [];
    var i := 0;
    while i < |components|
      invariant 0 <= i <= |components|
      invariant |entries| == i
      invariant forall a | 0 <= a < i :: entries[a] == EntryFor(st, student, components[a])
      invariant total == WeightedTotal(entries)
    {
      var c := components[i];
      var e := ReportEntry(c.name, c.percentage, if c.id in gradeMap then Some(gradeMap[c.id]) else None);
      LookupAgrees(st, student, components, i);
      if e.score.Some? {
        total := total + e.score.value * c.percentage;
      }
      SumsSnoc(entries, e);
      EntriesSnoc(st, student, components, entries, e);
      entries := entries + [e];
      i := i + 1;
    }
    ReportFromEntries(st, student, course, entries);
    report := CourseReport(course, entries, RoundHalfEven(total, 100));
  }

  /** Appending the entry of the next component keeps the entries in step
      with the components. */
  lemma EntriesSnoc(st: Store, student: UserId, components: seq<Component>, entries: seq<ReportEntry>, e: ReportEntry)
    requires |entries| < |components|
    requires forall a | 0 <= a < |entries| :: entries[a] == EntryFor(st, student, components[a])
    requires e == EntryFor(st, student, components[|entries|])
    ensures forall a | 0 <= a < |entries| + 1 :: (entries + [e])[a] == EntryFor(st, student, components[a])
  {
  }

  /** Entries that list the course's components in order, each with its
      score, make up the course report. */
  lemma ReportFromEntries(st: Store, student: UserId, course: CourseId, entries: seq<ReportEntry>)
    requires |entries| == |ComponentsOf(st, course)|
    requires forall a | 0 <= a < |entries| :: entries[a] == EntryFor(st, student, ComponentsOf(st, course)[a])
    ensures ReportOf(st, student, course) == CourseReport(course, entries, FinalGradeOf(entries))
  {
    assert ReportOf(st, student, course).entries == entries;
  }

  /** The courses a student is enrolled in. */
  function EnrolledCourses(st: Store, student: UserId): set<CourseId> {
    set c | c in st.courses && student in st.courses[c].students
  }

  /** The whole dashboard: one report per enrolled course, in the order the
      enrolment query returns the courses. */
  method StudentDashboard(st: Store, student: UserId, enrolled: seq<CourseId>) returns (reports: seq<CourseReport>)
    requires forall i, j | 0 <= i < j < |enrolled| :: enrolled[i] != enrolled[j]
    requires forall c :: c in enrolled <==> c in EnrolledCourses(st, student)
    ensures |reports| == |enrolled|
    ensures forall i | 0 <= i < |reports| :: reports[i] == ReportOf(st, student, enrolled[i])
    ensures forall c | c in EnrolledCourses(st, student) ::
      exists i | 0 <= i < |reports| :: reports[i].course == c
  {
    reports := [];
    var i := 0;
    while i < |enrolled|
      invariant 0 <= i <= |enrolled|
      invariant |reports| == i
      invariant forall a | 0 <= a < i :: reports[a] == ReportOf(st, student, enrolled[a])
      invariant forall a | 0 <= a < i :: reports[a].course == enrolled[a]
    {
      var report := BuildCourseReport(st, student, enrolled[i]);
      reports := reports + [report];
      i := i + 1;
    }
    EveryCourseReported(st, student, enrolled, reports);
  }

  lemma EveryCourseReported(st: Store, student: UserId, enrolled: seq<CourseId>, reports: seq<CourseReport>)
    requires |reports| == |enrolled|
    requires forall i | 0 <= i < |reports| :: reports[i].course == enrolled[i]
    requires forall c :: c in enrolled <==> c in EnrolledCourses(st, student)
    ensures forall c | c in EnrolledCourses(st, student) ::
      exists i | 0 <= i < |reports| :: reports[i].course == c
  {
    forall c | c in EnrolledCourses(st, student)
      ensures exists a | 0 <= a < |reports| :: reports[a].course == c
    {
      var a :| 0 <= a < |enrolled| && enrolled[a] == c;
      assert reports[a].course == c;
    }
  }
}

=== FILE: grade_entry.dfy ===
/** Bulk grade entry: the form posted from the grade table carries one field
    per cell, named `grade_<student id>_<component id>`, whose value is the
    score typed by the instructor. The fields are folded, one after another,
    into the grade rows of the store. Each cell either writes its pair's row
    or is skipped; a skipped cell never stops the rest of the batch. */
module GradeEntry {
  import opened Wrappers
  import opened Text
  import opened Rounding
  import opened Schema

  const FieldPrefix := "grade_"

  /** The name of the form field for a (student, component) cell. */
  function GradeFieldName(student: nat, component: nat): string {
    FieldPrefix + NatToString(student) + "_" + NatToString(component)
  }

  /** The (student, component) pair a field addresses. Only fields whose name
      starts with `grade_` and splits on `_` into exactly three pieces, the
      last two of them integers, address a pair. */
  function ParseGradeKey(key: string): (r: Option<GradeKey>)
    ensures r.Some? ==> StartsWith(key, FieldPrefix) && Count(key, '_') == 2
  {
    if !StartsWith(key, FieldPrefix) then None
    else
      var parts := Split(key, '_');
      if |parts| != 3 then None
      else match (ParseInt(parts[1]), ParseInt(parts[2]))
        case (Some(s), Some(c)) => Some((s, c))
        case _ => None
  }

  /** A `grade_`-prefixed name splits into `grade` and the pieces of the rest. */
  lemma SplitAfterPrefix(key: string)
    requires StartsWith(key, FieldPrefix)
    ensures Split(key, '_') == ["grade"] + Split(key[|FieldPrefix|..], '_')
  {
    assert key == "grade" + ['_'] + key[|FieldPrefix|..];
    SplitPeel("grade", '_', key[|FieldPrefix|..]);
  }

  /** Characterisation of the accepted names: a field addresses (s, c)
      exactly when it is `grade_` + a + `_` + b for underscore-free a and b
      that `int()` reads as s and c. */
  lemma ParseGradeKeyShape(key: string, k: GradeKey)
    requires ParseGradeKey(key) == Some(k)
    ensures exists a: string, b: string ::
      && key == FieldPrefix + a + "_" + b
      && '_' !in a && '_' !in b
      && ParseInt(a) == Some(k.0) && ParseInt(b) == Some(k.1)
  {
    var rest := key[|FieldPrefix|..];
    SplitAfterPrefix(key);
    var pieces := Split(rest, '_');
    assert |pieces| == 2;
    var a, b := pieces[0], pieces[1];
    JoinOfSplit(rest, '_');
    assert Join(pieces, '_') == a + ['_'] + Join(pieces[1..], '_');
    assert pieces[1..] == [b];
    assert rest == a + "_" + b;
    assert key == FieldPrefix + rest;
    assert key == FieldPrefix + a + "_" + b;
  }

  lemma ParseGradeKeyOfShape(a: string, b: string)
    requires '_' !in a && '_' !in b
    ensures ParseGradeKey(FieldPrefix + a + "_" + b) ==
      match (ParseInt(a), ParseInt(b))
      case (Some(s), Some(c)) => Some((s, c))
      case _ => None
  {
    var key := FieldPrefix + a + "_" + b;
    assert key[..|FieldPrefix|] == FieldPrefix;
    assert key[|FieldPrefix|..] == a + "_" + b;
    SplitAfterPrefix(key);
    SplitPeel(a, '_', b);
    SplitOfPlain(b, '_');
    assert a + "_" + b == a + ['_'] + b;
  }

  /** Field names built for a pair read back as that pair. */
  lemma GradeFieldNameRoundTrip(student: nat, component: nat)
    ensures ParseGradeKey(GradeFieldName(student, component)) == Some((student, component))
  {
    DigitsLack(NatToString(student), '_');
    DigitsLack(NatToString(component), '_');
    ParseIntOfNatToString(student);
    ParseIntOfNatToString(component);
    ParseGradeKeyOfShape(NatToString(student), NatToString(component));
  }

  // ---------------------------------------------------------------------------
  // Cell values

  /** What saving a submitted value does to the score column. */
  datatype SaveValue =
    | Ungraded               // blank input: the score becomes null
    | Graded(score: Hundredths)
    | Rejected               // the save raises; the row keeps its score

  /** A blank value means "not graded". Anything else goes through the decimal
      column: it must be a decimal literal, is rounded half-to-even to two
      places, and must then fit five digits. */
  function CleanScore(value: string): (r: SaveValue)
    ensures r == Ungraded <==> value == ""
    ensures value != "" && ParseDecimal(value).None? ==> r == Rejected
    ensures r.Graded? ==> ValidScore(r.score)
    ensures r.Graded? ==> ParseDecimal(value).Some?
    ensures r.Graded? ==> NearestHundredth(ParseDecimal(value).value, r.score)
    ensures value != "" && ParseDecimal(value).Some? ==>
      forall h {:trigger NearestHundredth(ParseDecimal(value).value, h)} |
        NearestHundredth(ParseDecimal(value).value, h) && ValidScore(h) :: r == Graded(h)
  {
    if value == "" then Ungraded
    else match ParseDecimal(value)
      case None => Rejected
      case Some(d) =>
        NearestHundredthUnique(d);
        var q := RoundHalfEven(d.coefficient * 100, Pow10(d.places));
        if ValidScore(q) then Graded(q) else Rejected
  }

  /** A decimal has exactly one nearest hundredth with ties to even: the one
      quantization computes. */
  lemma NearestHundredthUnique(d: Decimal)
    ensures forall h | NearestHundredth(d, h) :: h == RoundHalfEven(d.coefficient * 100, Pow10(d.places))
  {
    forall h | NearestHundredth(d, h)
      ensures h == RoundHalfEven(d.coefficient * 100, Pow10(d.places))
    {
      RoundHalfEvenUnique(d.coefficient * 100, Pow10(d.places), h);
    }
  }

  /** `h` hundredths is the value of `d` rounded half-to-even to two places:
      the nearest hundredth, and the even one on a tie. */
  predicate NearestHundredth(d: Decimal, h: Hundredths) {
    var gap := 2 * Abs(d.coefficient * 100 - h * Pow10(d.places));
    gap <= Pow10(d.places) && (gap == Pow10(d.places) ==> h % 2 == 0)
  }

  /** A score typed the way a two-place score prints is stored unchanged. */
  lemma CleanScoreOfFormat(h: Hundredths)
    requires ValidScore(h)
    ensures CleanScore(FormatHundredths(h)) == Graded(h)
  {
    ParseDecimalOfFormat(h);
    assert Pow10(2) == 100;
    RoundHalfEvenExact(h, 100);
  }

  /** Values typed with fewer or more than two places are stored too, rounded
      to the nearest hundredth with ties to even; values that do not read as
      a decimal, or whose rounding needs more than five digits, are not. */
  lemma CleanScoreExamples()
    ensures CleanScore("80") == Graded(8000)
    ensures CleanScore("80.5") == Graded(8050)
    ensures CleanScore("80.125") == Graded(8012)
    ensures CleanScore("1000") == Rejected
    ensures CleanScore("8o") == Rejected
  {
    WholeScoreStored();
    OnePlaceScoreStored();
    ThreePlaceScoreRounded();
    OversizedScoreRejected();
    UnreadableScoreRejected();
  }

  lemma UnreadableScoreRejected()
    ensures CleanScore("8o") == Rejected
  {
    SplitOfPlain("8o", '.');
    assert !IsDigit("8o"[1]);
    assert ParseUnsignedDecimal("8o").None?;
  }

  lemma WholeScoreStored()
    ensures CleanScore("80") == Graded(8000)
  {
    assert DigitsValue("80") == 80 by {
      assert "80"[..1] == "8" && "8"[..0] == "";
    }
    WholeNumberParses("80", 80);
    assert NearestHundredth(Decimal(80, 0), 8000);
  }

  lemma OnePlaceScoreStored()
    ensures CleanScore("80.5") == Graded(8050)
  {
    assert DigitsValue("805") == 805 by {
      assert "805"[..2] == "80" && "80"[..1] == "8" && "8"[..0] == "";
    }
    assert "80" + "5" == "805";
    PointedNumberParses("80", "5", 805);
    assert "80" + "." + "5" == "80.5";
    assert Pow10(1) == 10;
    assert NearestHundredth(Decimal(805, 1), 8050);
  }

  lemma ThreePlaceScoreRounded()
    ensures CleanScore("80.125") == Graded(8012)
  {
    ThreePlaceScoreParses();
    assert Pow10(3) == 1000;
    assert NearestHundredth(Decimal(80125, 3), 8012);
  }

  lemma ThreePlaceScoreParses()
    ensures ParseDecimal("80.125") == Some(Decimal(80125, 3))
  {
    assert DigitsValue("8") == 8 by { assert "8"[..0] == ""; }
    DigitsValueSnoc("8", '0');
    assert "8" + ['0'] == "80";
    DigitsValueSnoc("80", '1');
    assert "80" + ['1'] == "801";
    DigitsValueSnoc("801", '2');
    assert "801" + ['2'] == "8012";
    DigitsValueSnoc("8012", '5');
    assert "8012" + ['5'] == "80125";
    assert "80" + "125" == "80125";
    PointedNumberParses("80", "125", 80125);
    assert "80" + "." + "125" == "80.125";
  }

  lemma OversizedScoreRejected()
    ensures CleanScore("1000") == Rejected
  {
    assert DigitsValue("1000") == 1000 by {
      assert "1000"[..3] == "100" && "100"[..2] == "10" && "10"[..1] == "1" && "1"[..0] == "";
    }
    WholeNumberParses("1000", 1000);
    RoundHalfEvenExact(100000, 1);
  }

  lemma WholeNumberParses(s: string, n: nat)
    requires |s| >= 1 && AllDigits(s) && DigitsValue(s) == n
    ensures ParseDecimal(s) == Some(Decimal(n, 0))
  {
    DigitsLack(s, '.');
    SplitOfPlain(s, '.');
    assert IsDigit(s[0]);
    assert s + "" == s;
    assert ParseUnsignedDecimal(s) == Some(Decimal(n, 0));
  }

  lemma PointedNumberParses(whole: string, fraction: string, n: nat)
    requires |whole| >= 1 && AllDigits(whole) && AllDigits(fraction)
    requires AllDigits(whole + fraction) && DigitsValue(whole + fraction) == n
    ensures ParseDecimal(whole + "." + fraction) == Some(Decimal(n, |fraction|))
  {
    ParseUnsignedOfPointed(whole, fraction);
  }

  /** The score column after a successful save. */
  function Written(v: SaveValue): Option<Hundredths>
    requires !v.Rejected?
  {
    if v.Graded? then Some(v.score) else None
  }

  // ---------------------------------------------------------------------------
  // The fold

  /** Both ends of the row's foreign keys exist. */
  predicate TargetExists(st: Store, k: GradeKey) {
    k.0 in st.users && k.1 in ComponentIds(st)
  }

  /** Whether get-or-create yields a row for the pair: the row exists, or it
      can be inserted without violating a foreign key. */
  predicate Addressable(st: Store, k: GradeKey) {
    k in st.grades || TargetExists(st, k)
  }

  /** Get-or-create of the row for `k`, then the save of value `v` into it.
      When the row cannot be created the store is left alone; when the save
      fails a freshly created row stays behind with a null score. */
  function Upsert(st: Store, k: GradeKey, v: SaveValue): (st': Store)
    ensures st' == st.(grades := st'.grades)
    ensures st.grades.Keys <= st'.grades.Keys <= st.grades.Keys + {k}
    ensures forall k' | k' in st.grades && k' != k :: st'.grades[k'] == st.grades[k']
    ensures k in st'.grades && k !in st.grades ==> TargetExists(st, k)
    ensures !Addressable(st, k) ==> st' == st
    ensures Addressable(st, k) && !v.Rejected? ==> st'.grades == st.grades[k := Written(v)]
    ensures v.Rejected? && k in st.grades ==> st' == st
    ensures v.Rejected? && k in st'.grades && k !in st.grades ==> st'.grades[k].None?
    ensures v.Rejected? && k !in st.grades && TargetExists(st, k) ==> st'.grades == st.grades[k := None]
  {
    if !Addressable(st, k) then st
    else
      var row := if k in st.grades then st else st.(grades := st.grades[k := None]);
      match v
      case Rejected => row
      case Ungraded => row.(grades := row.grades[k := None])
      case Graded(h) => row.(grades := row.grades[k := Some(h)])
  }

  lemma UpsertValid(st: Store, k: GradeKey, v: SaveValue)
    requires Valid(st)
    requires v.Graded? ==> ValidScore(v.score)
    ensures Valid(Upsert(st, k, v))
  {
    var st' := Upsert(st, k, v);
    assert ComponentIds(st') == ComponentIds(st);
    assert GradesValid(st') by {
      forall k' | k' in st'.grades
        ensures k'.0 in st'.users && k'.1 in ComponentIds(st') && ValidScoreCell(st'.grades[k'])
      {
        if k' != k || (k in st.grades && v.Rejected?) {
          assert k' in st.grades;
        }
      }
    }
  }

  /** One iteration of the loop over the posted fields: fields that do not
      address a pair are passed over, the others upsert their pair. */
  function ApplyCell(st: Store, key: string, value: string): (st': Store)
    ensures st' == st.(grades := st'.grades)
    ensures st.grades.Keys <= st'.grades.Keys
    ensures Valid(st) ==> Valid(st')
  {
    match ParseGradeKey(key)
    case None => st
    case Some(k) =>
      assert Valid(st) ==> Valid(Upsert(st, k, CleanScore(value))) by {
        if Valid(st) { UpsertValid(st, k, CleanScore(value)); }
      }
      Upsert(st, k, CleanScore(value))
  }

  /** The whole batch, in the order the form's `items()` yields the fields. */
  function ApplyBatch(st: Store, items: seq<(string, string)>): (st': Store)
    ensures st' == st.(grades := st'.grades)
    ensures st.grades.Keys <= st'.grades.Keys
    ensures Valid(st) ==> Valid(st')
    decreases |items|
  {
    if |items| == 0 then st
    else
      var last := items[|items| - 1];
      ApplyCell(ApplyBatch(st, items[..|items| - 1]), last.0, last.1)
  }

  /** Folding two batches one after the other is folding their concatenation. */
  lemma {:induction false} ApplyBatchAppend(st: Store, a: seq<(string, string)>, b: seq<(string, string)>)
    ensures ApplyBatch(st, a + b) == ApplyBatch(ApplyBatch(st, a), b)
    decreases |b|
  {
    if |b| == 0 {
      assert a + b == a;
    } else {
      assert (a + b)[..|a + b| - 1] == a + b[..|b| - 1];
      assert (a + b)[|a + b| - 1] == b[|b| - 1];
      ApplyBatchAppend(st, a, b[..|b| - 1]);
    }
  }

  /** Cells that address other pairs leave a pair's row as it is, and give
      a pair that has no row none. */
  lemma {:induction false} UntouchedRowKept(st: Store, items: seq<(string, string)>, k: GradeKey)
    requires forall j :: 0 <= j < |items| ==> ParseGradeKey(items[j].0) != Some(k)
    ensures k in ApplyBatch(st, items).grades <==> k in st.grades
    ensures k in st.grades ==> ApplyBatch(st, items).grades[k] == st.grades[k]
    decreases |items|
  {
    if |items| > 0 {
      UntouchedRowKept(st, items[..|items| - 1], k);
    }
  }

  /** Last write wins: the row of a pair ends up holding what the last cell
      addressing it wrote, provided that cell's save succeeds. */
  lemma LastWriteWins(st: Store, items: seq<(string, string)>, i: nat, k: GradeKey)
    requires i < |items|
    requires ParseGradeKey(items[i].0) == Some(k) && Addressable(st, k)
    requires !CleanScore(items[i].1).Rejected?
    requires forall j :: i < j < |items| ==> ParseGradeKey(items[j].0) != Some(k)
    ensures k in ApplyBatch(st, items).grades
    ensures ApplyBatch(st, items).grades[k] == Written(CleanScore(items[i].1))
  {
    var pre, post := items[..i], items[i + 1..];
    assert items == pre + [items[i]] + post;
    ApplyBatchAppend(st, pre + [items[i]], post);
    ApplyBatchAppend(st, pre, [items[i]]);
    var before := ApplyBatch(st, pre);
    assert ApplyBatch(before, [items[i]]) == ApplyCell(before, items[i].0, items[i].1) by {
      assert [items[i]][..0] == [];
    }
    assert Addressable(before, k);
    UntouchedRowKept(ApplyCell(before, items[i].0, items[i].1), post, k);
  }

  /** A second submission overrides the first: a pair written by the later
      batch holds the later batch's value. */
  lemma LaterBatchWins(st: Store, first: seq<(string, string)>, second: seq<(string, string)>, i: nat, k: GradeKey)
    requires i < |second|
    requires ParseGradeKey(second[i].0) == Some(k) && Addressable(st, k)
    requires !CleanScore(second[i].1).Rejected?
    requires forall j :: i < j < |second| ==> ParseGradeKey(second[j].0) != Some(k)
    ensures k in ApplyBatch(ApplyBatch(st, first), second).grades
    ensures ApplyBatch(ApplyBatch(st, first), second).grades[k] == Written(CleanScore(second[i].1))
  {
    var mid := ApplyBatch(st, first);
    assert Addressable(mid, k);
    LastWriteWins(mid, second, i, k);
  }

  /** A field that does not address a pair (another form field, or a
      malformed `grade_` name) has no effect on the outcome of the batch. */
  lemma IgnoredFieldIsNoOp(st: Store, pre: seq<(string, string)>, key: string, value: string, post: seq<(string, string)>)
    requires ParseGradeKey(key).None?
    ensures ApplyBatch(st, pre + [(key, value)] + post) == ApplyBatch(st, pre + post)
  {
    ApplyBatchAppend(st, pre + [(key, value)], post);
    ApplyBatchAppend(st, pre, [(key, value)]);
    ApplyBatchAppend(st, pre, post);
    assert [(key, value)][..0] == [];
  }

  /** `big` is `small` plus, at most, an ungraded row for `k0` whose
      targets exist. */
  predicate ExtendsByUngraded(big: Store, small: Store, k0: GradeKey) {
    && big == small.(grades := big.grades)
    && (big.grades == small.grades
        || (k0 !in small.grades && TargetExists(small, k0)
            && big.grades == small.grades[k0 := None]))
  }

  lemma UpsertKeepsExtension(big: Store, small: Store, k0: GradeKey, k: GradeKey, v: SaveValue)
    requires ExtendsByUngraded(big, small, k0)
    ensures ExtendsByUngraded(Upsert(big, k, v), Upsert(small, k, v), k0)
  {
    if big.grades != small.grades {
      if k == k0 {
        UpsertSamePair(big, small, k0, v);
      } else {
        UpsertOtherPair(big, small, k0, k, v);
      }
    }
  }

  /** Saving into the extra row's own pair makes both stores agree. */
  lemma UpsertSamePair(big: Store, small: Store, k0: GradeKey, v: SaveValue)
    requires ExtendsByUngraded(big, small, k0) && big.grades != small.grades
    ensures Upsert(big, k0, v) == Upsert(small, k0, v)
  {
    assert Addressable(small, k0) && k0 in big.grades;
    match v
    case Rejected =>
      assert Upsert(small, k0, v).grades == small.grades[k0 := None];
    case Ungraded =>
      assert big.grades[k0 := None] == small.grades[k0 := None][k0 := None];
    case Graded(h) =>
      assert big.grades[k0 := Some(h)] == small.grades[k0 := None][k0 := Some(h)];
  }

  /** Saving into any other pair keeps the extra row and nothing more. */
  lemma UpsertOtherPair(big: Store, small: Store, k0: GradeKey, k: GradeKey, v: SaveValue)
    requires ExtendsByUngraded(big, small, k0) && big.grades != small.grades && k != k0
    ensures Upsert(big, k, v) == Upsert(small, k, v).(grades := Upsert(big, k, v).grades)
    ensures k0 !in Upsert(small, k, v).grades && TargetExists(Upsert(small, k, v), k0)
    ensures Upsert(big, k, v).grades == Upsert(small, k, v).grades[k0 := None]
  {
    assert Addressable(small, k) <==> Addressable(big, k);
    assert k in big.grades <==> k in small.grades;
    if Addressable(small, k) && !(v.Rejected? && k in small.grades) {
      OtherPairWritten(big, small, k0, k, if v.Rejected? then None else Written(v));
    }
  }

  lemma OtherPairWritten(big: Store, small: Store, k0: GradeKey, k: GradeKey, w: Option<Hundredths>)
    requires big == small.(grades := small.grades[k0 := None]) && k0 !in small.grades
    requires TargetExists(small, k0) && k != k0
    ensures var s', b' := small.(grades := small.grades[k := w]), big.(grades := big.grades[k := w]);
      && b' == s'.(grades := b'.grades)
      && k0 !in s'.grades && TargetExists(s', k0)
      && b'.grades == s'.grades[k0 := None]
  {
    assert small.grades[k0 := None][k := w] == small.grades[k := w][k0 := None];
  }

  lemma ApplyCellKeepsExtension(big: Store, small: Store, k0: GradeKey, key: string, value: string)
    requires ExtendsByUngraded(big, small, k0)
    ensures ExtendsByUngraded(ApplyCell(big, key, value), ApplyCell(small, key, value), k0)
  {
    match ParseGradeKey(key)
    case None =>
    case Some(k) => UpsertKeepsExtension(big, small, k0, k, CleanScore(value));
  }

  lemma {:induction false} ApplyBatchKeepsExtension(big: Store, small: Store, k0: GradeKey, items: seq<(string, string)>)
    requires ExtendsByUngraded(big, small, k0)
    ensures ExtendsByUngraded(ApplyBatch(big, items), ApplyBatch(small, items), k0)
    decreases |items|
  {
    if |items| > 0 {
      var init := items[..|items| - 1];
      ApplyBatchKeepsExtension(big, small, k0, init);
      var last := items[|items| - 1];
      ApplyCellKeepsExtension(ApplyBatch(big, init), ApplyBatch(small, init), k0, last.0, last.1);
    }
  }

  /** A cell whose save fails changes nothing else: every row the batch
      would produce without it is produced unchanged, and the only possible
      trace of the failed cell is an ungraded row for its own pair, left by
      the get-or-create that ran before the save. */
  lemma FailedCellIsolated(st: Store, pre: seq<(string, string)>, key: string, value: string, post: seq<(string, string)>)
    requires CleanScore(value).Rejected?
    ensures var with := ApplyBatch(st, pre + [(key, value)] + post);
      var without := ApplyBatch(st, pre + post);
      && with == without.(grades := with.grades)
      && (forall k | k in without.grades :: k in with.grades && with.grades[k] == without.grades[k])
      && (forall k | k in with.grades && k !in without.grades ::
            Some(k) == ParseGradeKey(key) && with.grades[k].None?)
  {
    ApplyBatchAppend(st, pre + [(key, value)], post);
    ApplyBatchAppend(st, pre, [(key, value)]);
    ApplyBatchAppend(st, pre, post);
    assert [(key, value)][..0] == [];
    var before := ApplyBatch(st, pre);
    var after := ApplyCell(before, key, value);
    match ParseGradeKey(key)
    case None =>
    case Some(k0) =>
      FailedCellExtends(before, key, value, k0);
      ApplyBatchKeepsExtension(after, before, k0, post);
      ExtensionShape(ApplyBatch(after, post), ApplyBatch(before, post), k0);
  }

  /** A failed save leaves at most an ungraded row for its own pair. */
  lemma FailedCellExtends(st: Store, key: string, value: string, k0: GradeKey)
    requires CleanScore(value).Rejected? && ParseGradeKey(key) == Some(k0)
    ensures ExtendsByUngraded(ApplyCell(st, key, value), st, k0)
  {
  }

  /** What an extension by one ungraded row keeps and adds. */
  lemma ExtensionShape(big: Store, small: Store, k0: GradeKey)
    requires ExtendsByUngraded(big, small, k0)
    ensures big == small.(grades := big.grades)
    ensures forall k | k in small.grades :: k in big.grades && big.grades[k] == small.grades[k]
    ensures forall k | k in big.grades && k !in small.grades :: k == k0 && big.grades[k].None?
  {
  }

  /** Typing a two-place score into a cell stores exactly that score. */
  lemma TypedScoreStored(st: Store, student: nat, component: nat, h: Hundredths)
    requires ValidScore(h) && Addressable(st, (student, component))
    ensures ApplyCell(st, GradeFieldName(student, component), FormatHundredths(h)).grades
            == st.grades[(student, component) := Some(h)]
  {
    GradeFieldNameRoundTrip(student, component);
    CleanScoreOfFormat(h);
  }
}

=== FILE: grade_table.dfy ===
/** The grade table of the course-management page: one row per listed
    student, one cell per component of the course, each cell showing the
    stored score or nothing. */
module GradeTable {
  import opened Wrappers
  import opened Schema

  datatype Cell = Cell(component: ComponentId, score: Option<Hundredths>)
  datatype Row = Row(student: UserId, cells: seq<Cell>)

  /** The grade rows fetched in one query: those of the listed students on
      the listed components, keyed by (student, component). */
  function VisibleGrades(grades: map<GradeKey, Option<Hundredths>>, students: seq<UserId>,
                         components: seq<Component>): (m: map<GradeKey, Option<Hundredths>>)
    ensures forall k :: k in m <==>
      k in grades && k.0 in students && exists c :: c in components && c.id == k.1
    ensures forall k | k in m :: m[k] == grades[k]
  {
    var ids := set c | c in components :: c.id;
    map k | k in grades && k.0 in students && k.1 in ids :: grades[k]
  }

  /** Building the table cell by cell from the fetched rows. Restricting the
      query to the listed students and components loses nothing: every cell
      shows what the full grade table holds for its pair. */
  method StudentGradeRows(grades: map<GradeKey, Option<Hundredths>>, students: seq<UserId>,
                          components: seq<Component>) returns (rows: seq<Row>)
    ensures |rows| == |students|
    ensures forall i | 0 <= i < |rows| ::
      rows[i].student == students[i] && |rows[i].cells| == |components|
    ensures forall i, j | 0 <= i < |rows| && 0 <= j < |components| ::
      rows[i].cells[j] == Cell(components[j].id, ScoreOf(grades, (students[i], components[j].id)))
  {
    var gradeMap := VisibleGrades(grades, students, components);
    rows := [];
    var i := 0;
    while i < |students|
      invariant 0 <= i <= |students|
      invariant |rows| == i
      invariant forall a | 0 <= a < i ::
        rows[a].student == students[a] && |rows[a].cells| == |components|
      invariant forall a, j | 0 <= a < i && 0 <= j < |components| ::
        rows[a].cells[j] == Cell(components[j].id, ScoreOf(grades, (students[a], components[j].id)))
    {
      var student := students[i];
      var cells: seq<Cell> := [];
      var j := 0;
      while j < |components|
        invariant 0 <= j <= |components|
        invariant |cells| == j
        invariant forall b | 0 <= b < j ::
          cells[b] == Cell(components[b].id, ScoreOf(grades, (student, components[b].id)))
      {
        var component := components[j];
        assert component in components;
        cells := cells + [Cell(component.id, ScoreOf(gradeMap, (student, component.id)))];
        j := j + 1;
      }
      rows := rows + [Row(student, cells)];
      i := i + 1;
    }
  }
}

=== FILE: manage_course.dfy ===
/** The POST side of the course-management view. The course is looked up
    first, among those the requesting instructor is assigned to; any other
    course id is answered with "not found". The posted form is then read,
    which fails on a body with too many fields, and the submit button it
    names picks the branch: adding an evaluation component, adding a
    learning outcome or submitting the grade table. */
module ManageCourse {
  import opened Wrappers
  import opened Text
  import opened Schema
  import opened GradeEntry
  import opened PostData

  datatype ManageOutcome =
    | NotFound                // the course does not exist or is not the instructor's
    | FormInvalid             // the component form did not validate; nothing saved
    | IntegrityError          // the insert broke a uniqueness constraint; nothing saved
    | Saved(store: Store)
    | BadRequest              // the body has more fields than Django reads; nothing saved
    | OutcomeBranch           // the learning-outcome form was submitted; no table here changes
    | NoBranch                // no known submit button was posted; nothing saved

  /** Django's default `DATA_UPLOAD_MAX_NUMBER_FIELDS`. */
  const MaxNumberFields := 1000

  /** The course looked up by id among the courses the instructor teaches. */
  function InstructorCourse(st: Store, instructor: UserId, course: CourseId): (r: Option<Course>)
    ensures r.Some? <==> course in st.courses && instructor in st.courses[course].instructors
    ensures r.Some? ==> r.value == st.courses[course]
  {
    if course in st.courses && instructor in st.courses[course].instructors
    then Some(st.courses[course]) else None
  }

  /** The grade-table branch, as `ManagePost` runs it once the body has
      been read and names `submit_grades` without the other two buttons.
      `body` is the posted form as sent, in which a field name may repeat;
      the view iterates the form's `items()`, one field per distinct name
      carrying the last value posted under it, and folds them into the
      store. Field names are not checked against the course. */
  function SubmitGrades(st: Store, instructor: UserId, course: CourseId, body: seq<Field>): (o: ManageOutcome)
    ensures o.NotFound? <==> InstructorCourse(st, instructor, course).None?
    ensures o.NotFound? || o == Saved(ApplyBatch(st, PostItems(body)))
    ensures o.Saved? && Valid(st) ==> Valid(o.store)
  {
    if InstructorCourse(st, instructor, course).None? then NotFound
    else Saved(ApplyBatch(st, PostItems(body)))
  }

  /** A field name posted twice counts once, with its later value: the
      earlier value is never written. */
  lemma RepeatedFieldTakesLastValue(st: Store, instructor: UserId, course: CourseId,
                                    name: string, earlier: string, later: string)
    ensures SubmitGrades(st, instructor, course, [(name, earlier), (name, later)])
            == SubmitGrades(st, instructor, course, [(name, later)])
  {
    RepeatedNameCollapses(name, earlier, later);
  }

  /** What Django's integer form field reads from a posted value: nothing
      from an empty value; otherwise a trailing point-and-zeros fraction is
      dropped and `int()` reads the rest, whitespace around it allowed. */
  function IntegerFieldValue(value: string): (r: Option<int>)
    ensures value == "" ==> r.None?
  {
    if value == "" then None else ParseInt(Strip(DropZeroFraction(value)))
  }

  /** A whole number, padded with whitespace and optionally followed by a
      zero fraction, reads as itself. */
  lemma IntegerFieldReadsNumeral(pre: string, n: nat, tail: string)
    requires AllSpaces(pre)
    requires AllSpaces(tail) || ZeroFractionSuffix(tail)
    ensures IntegerFieldValue(pre + NatToString(n) + tail) == Some(n)
  {
    var digits := NatToString(n);
    var value := pre + digits + tail;
    var cut := DropZeroFraction(value);
    NumeralCut(pre, n, tail);
    assert Strip(cut) == digits by {
      if ZeroFractionSuffix(tail) {
        StripOfPadded(pre, digits, []);
        assert pre + digits + [] == pre + digits;
      } else {
        StripOfPadded(pre, digits, tail);
      }
    }
    ParseIntOfNatToString(n);
  }

  /** What the zero-fraction cut leaves of a padded numeral. */
  lemma NumeralCut(pre: string, n: nat, tail: string)
    requires AllSpaces(pre)
    requires AllSpaces(tail) || ZeroFractionSuffix(tail)
    ensures NatToString(n) != [] ==> IsDigit(NatToString(n)[0]) && IsDigit(NatToString(n)[|NatToString(n)| - 1])
    ensures ZeroFractionSuffix(tail) ==> DropZeroFraction(pre + NatToString(n) + tail) == pre + NatToString(n)
    ensures !ZeroFractionSuffix(tail) ==> DropZeroFraction(pre + NatToString(n) + tail) == pre + NatToString(n) + tail
  {
    var digits := NatToString(n);
    DigitsLack(digits, '.');
    assert '.' !in pre;
    if ZeroFractionSuffix(tail) {
      DropZeroFractionCuts(pre + digits, tail);
    } else {
      assert '.' !in tail;
      DropZeroFractionKeeps(pre + digits + tail);
    }
  }

  /** A fraction that is not zero does not read as an integer. */
  lemma IntegerFieldRejectsFraction()
    ensures IntegerFieldValue("40.5") == None
  {
    var s := "40.5";
    assert DropZeroFraction(s) == s by { FractionKept(); }
    assert Strip(s) == s by { StripUnpadded(s); }
    assert ParseInt(s) == None by { ParseIntRejects(s, 2); }
  }

  /** A fraction with a non-zero digit is not cut off before parsing. */
  lemma FractionKept()
    ensures DropZeroFraction("40.5") == "40.5"
  {
    var s := "40.5";
    NotZeroFraction(s[2..]);
    assert forall p | 0 <= p < 4 && p != 2 :: s[p..][0] != '.';
    DropZeroFractionNoMatch(s);
  }

  /** Text that is not a number does not read as an integer. */
  lemma IntegerFieldRejectsText()
    ensures IntegerFieldValue("4o") == None
  {
    DropZeroFractionKeeps("4o");
    StripUnpadded("4o");
    ParseIntRejects("4o", 1);
  }

  /** The component form's field checks. The name field strips surrounding
      whitespace first; what is left must be non-empty, at most 100
      characters and free of NUL characters. The percentage must read as an
      integer in the range of a small positive integer. The course is not a
      form field, so the (course, name) uniqueness is not checked by the
      form. */
  predicate ComponentFormValid(name: string, percentage: string) {
    var clean := Strip(name);
    && 1 <= |clean| <= ComponentNameMaxLength
    && '\0' !in clean
    && IntegerFieldValue(percentage).Some?
    && 0 <= IntegerFieldValue(percentage).value <= PercentageMax
  }

  predicate NameTaken(st: Store, course: CourseId, name: string) {
    exists c | c in st.components :: c.course == course && c.name == name
  }

  /** Saving a new evaluation component for the course, under the name as
      the form cleaned it. */
  function AddComponent(st: Store, instructor: UserId, course: CourseId, name: string, percentage: string): (o: ManageOutcome)
    ensures o.NotFound? <==> InstructorCourse(st, instructor, course).None?
    ensures o.FormInvalid? <==>
      InstructorCourse(st, instructor, course).Some? && !ComponentFormValid(name, percentage)
    ensures o.IntegrityError? <==>
      && InstructorCourse(st, instructor, course).Some?
      && ComponentFormValid(name, percentage)
      && NameTaken(st, course, Strip(name))
    ensures o.Saved? ==>
      var added := Component(st.nextComponentId, course, Strip(name), IntegerFieldValue(percentage).value);
      && o.store == st.(components := st.components + [added], nextComponentId := st.nextComponentId + 1)
      && ComponentsOf(o.store, course) == ComponentsOf(st, course) + [added]
      && forall other | other != course :: ComponentsOf(o.store, other) == ComponentsOf(st, other)
    ensures o.Saved? && Valid(st) ==> Valid(o.store)
  {
    if InstructorCourse(st, instructor, course).None? then NotFound
    else if !ComponentFormValid(name, percentage) then FormInvalid
    else if NameTaken(st, course, Strip(name)) then IntegrityError
    else
      var added := Component(st.nextComponentId, course, Strip(name), IntegerFieldValue(percentage).value);
      var st' := st.(components := st.components + [added], nextComponentId := st.nextComponentId + 1);
      FilterAppend(st.components, added, (c: Component) => c.course == course);
      assert forall other | other != course :: ComponentsOf(st', other) == ComponentsOf(st, other) by {
        forall other | other != course ensures ComponentsOf(st', other) == ComponentsOf(st, other) {
          FilterAppend(st.components, added, (c: Component) => c.course == other);
        }
      }
      assert Valid(st) ==> Valid(st') by {
        if Valid(st) { AddComponentValid(st, added, st'); }
      }
      Saved(st')
  }

  /** The text the form reads for a field: the last value posted under its
      name, or nothing. */
  function FieldText(body: seq<Field>, name: string): (v: string)
    ensures name !in NamesOf(body) ==> v == ""
    ensures LastValue(body, name).Some? ==> v == LastValue(body, name).value
  {
    LastValuePresent(body, name);
    match LastValue(body, name)
    case Some(v) => v
    case None => ""
  }

  /** The POST request to the course page. The course lookup comes first,
      then reading the body, then the submit buttons in the view's order. */
  function ManagePost(st: Store, instructor: UserId, course: CourseId, body: seq<Field>): (o: ManageOutcome)
    ensures o.NotFound? <==> InstructorCourse(st, instructor, course).None?
    ensures o.BadRequest? <==>
      InstructorCourse(st, instructor, course).Some? && |body| > MaxNumberFields
    ensures o.OutcomeBranch? <==>
      && InstructorCourse(st, instructor, course).Some? && |body| <= MaxNumberFields
      && "submit_evaluation" !in NamesOf(body) && "submit_outcome" in NamesOf(body)
    ensures o.NoBranch? <==>
      && InstructorCourse(st, instructor, course).Some? && |body| <= MaxNumberFields
      && "submit_evaluation" !in NamesOf(body) && "submit_outcome" !in NamesOf(body)
      && "submit_grades" !in NamesOf(body)
    ensures InstructorCourse(st, instructor, course).Some? && |body| <= MaxNumberFields
            && "submit_evaluation" in NamesOf(body) ==>
      o == AddComponent(st, instructor, course, FieldText(body, "name"), FieldText(body, "percentage"))
    ensures InstructorCourse(st, instructor, course).Some? && |body| <= MaxNumberFields
            && "submit_evaluation" !in NamesOf(body) && "submit_outcome" !in NamesOf(body)
            && "submit_grades" in NamesOf(body) ==>
      o == Saved(ApplyBatch(st, PostItems(body)))
    ensures o.Saved? && "submit_evaluation" in NamesOf(body) ==> o.store.grades == st.grades
    ensures o.Saved? && "submit_evaluation" !in NamesOf(body) ==> o.store.components == st.components
    ensures o.Saved? && Valid(st) ==> Valid(o.store)
  {
    if InstructorCourse(st, instructor, course).None? then NotFound
    else if |body| > MaxNumberFields then BadRequest
    else if "submit_evaluation" in NamesOf(body) then
      AddComponent(st, instructor, course, FieldText(body, "name"), FieldText(body, "percentage"))
    else if "submit_outcome" in NamesOf(body) then OutcomeBranch
    else if "submit_grades" in NamesOf(body) then SubmitGrades(st, instructor, course, body)
    else NoBranch
  }

  /** The grade form's own submit button is one more field that addresses
      no pair: posting it with the cells saves what the cells alone save. */
  lemma SubmitButtonIgnored(st: Store, instructor: UserId, course: CourseId, cells: seq<Field>)
    requires InstructorCourse(st, instructor, course).Some?
    requires |cells| < MaxNumberFields
    requires "submit_evaluation" !in NamesOf(cells) && "submit_outcome" !in NamesOf(cells)
    requires "submit_grades" !in NamesOf(cells)
    ensures ManagePost(st, instructor, course, [("submit_grades", "")] + cells)
            == SubmitGrades(st, instructor, course, cells)
  {
    var button := ("submit_grades", "");
    var body := [button] + cells;
    NamesOfCons(button, cells);
    GradeBranchTaken(st, instructor, course, body);
    PostItemsCons(button, cells);
    assert ParseGradeKey(button.0).None? by {
      assert "submit_grades"[..|FieldPrefix|][0] == 's';
    }
    IgnoredFirstField(st, button, PostItems(cells));
    assert ApplyBatch(st, PostItems(body)) == ApplyBatch(st, PostItems(cells));
  }

  /** A body that names only the grade form's button runs the grade branch. */
  lemma GradeBranchTaken(st: Store, instructor: UserId, course: CourseId, body: seq<Field>)
    requires InstructorCourse(st, instructor, course).Some? && |body| <= MaxNumberFields
    requires "submit_evaluation" !in NamesOf(body) && "submit_outcome" !in NamesOf(body)
    requires "submit_grades" in NamesOf(body)
    ensures ManagePost(st, instructor, course, body) == Saved(ApplyBatch(st, PostItems(body)))
  {
  }

  /** A leading field that addresses no pair changes nothing. */
  lemma IgnoredFirstField(st: Store, x: Field, items: seq<Field>)
    requires ParseGradeKey(x.0).None?
    ensures ApplyBatch(st, [x] + items) == ApplyBatch(st, items)
  {
    IgnoredFieldIsNoOp(st, [], x.0, x.1, items);
    assert [] + [x] + items == [x] + items;
    assert [] + items == items;
  }

  lemma AddComponentValid(st: Store, added: Component, st': Store)
    requires Valid(st)
    requires added.id == st.nextComponentId && added.course in st.courses
    requires 1 <= |added.name| <= ComponentNameMaxLength && 0 <= added.percentage <= PercentageMax
    requires !NameTaken(st, added.course, added.name)
    requires st' == st.(components := st.components + [added], nextComponentId := st.nextComponentId + 1)
    ensures Valid(st')
  {
    assert Ascending(st'.components) by {
      forall i, j | 0 <= i < j < |st'.components| ensures st'.components[i].id < st'.components[j].id {
        if j == |st.components| {
          assert st.components[i] in st.components;
        }
      }
    }
    assert NamesUniquePerCourse(st'.components);
    assert ComponentIds(st) <= ComponentIds(st');
  }

  /** Submitting a single cell typed as a two-place score, for a student
      and a component that exist, saves exactly that score. */
  lemma SubmitTypedCell(st: Store, instructor: UserId, course: CourseId,
                        student: nat, component: Component, h: Hundredths)
    requires InstructorCourse(st, instructor, course).Some?
    requires component in st.components && component.id >= 0
    requires student in st.users && ValidScore(h)
    ensures SubmitGrades(st, instructor, course, [(GradeFieldName(student, component.id), FormatHundredths(h))])
            == Saved(st.(grades := st.grades[(student, component.id) := Some(h)]))
  {
    var key := GradeFieldName(student, component.id);
    var items := [(key, FormatHundredths(h))];
    PostItemsOfDistinct(items);
    assert items[..0] == [];
    assert ApplyBatch(st, items) == ApplyCell(st, key, FormatHundredths(h));
    assert component.id in ComponentIds(st);
    assert Addressable(st, (student, component.id));
    TypedScoreStored(st, student, component.id, h);
    var after := ApplyCell(st, key, FormatHundredths(h));
    assert after == st.(grades := after.grades);
  }

  /** The submission writes any component's grades, including those of
      another course the instructor does not teach: nothing ties the posted
      field names to the managed course. */
  lemma GradesNotConfinedToCourse(st: Store, instructor: UserId, course: CourseId,
                                  student: nat, other: Component, h: Hundredths)
    requires Valid(st)
    requires InstructorCourse(st, instructor, course).Some?
    requires other in st.components && other.course != course && other.id >= 0
    requires instructor !in st.courses[other.course].instructors
    requires student in st.users && ValidScore(h)
    ensures InstructorCourse(st, instructor, other.course).None?
    ensures SubmitGrades(st, instructor, course, [(GradeFieldName(student, other.id), FormatHundredths(h))])
            == Saved(st.(grades := st.grades[(student, other.id) := Some(h)]))
  {
    SubmitTypedCell(st, instructor, course, student, other, h);
  }
}

=== FILE: post_data.dfy ===
/** The posted form as the view iterates it. The request body is a list of
    (name, value) fields in which a name may repeat; the form's `items()`
    yields every distinct name once, at the place where it first appears,
    paired with the last value posted under it. */
module PostData {
  import opened Wrappers

  type Field = (string, string)

  /** The names occurring in a list of fields. */
  function NamesOf(fields: seq<Field>): set<string> {
    set i | 0 <= i < |fields| :: fields[i].0
  }

  /** The first position of `name`, or the length when it does not occur. */
  function IndexOfName(fields: seq<Field>, name: string): (i: nat)
    ensures i <= |fields|
    ensures i < |fields| ==> fields[i].0 == name
    ensures forall j | 0 <= j < i :: fields[j].0 != name
    ensures i == |fields| <==> name !in NamesOf(fields)
    decreases |fields|
  {
    if |fields| == 0 then 0
    else if fields[0].0 == name then 0
    else
      var rest := IndexOfName(fields[1..], name);
      assert rest < |fields[1..]| ==> fields[1..][rest] == fields[rest + 1];
      assert name in NamesOf(fields[1..]) <==> name in NamesOf(fields) by {
        if name in NamesOf(fields) {
          var j :| 0 <= j < |fields| && fields[j].0 == name;
          assert fields[1..][j - 1] == fields[j];
        }
        if name in NamesOf(fields[1..]) {
          var j :| 0 <= j < |fields[1..]| && fields[1..][j].0 == name;
          assert fields[j + 1] == fields[1..][j];
        }
      }
      1 + rest
  }

  /** The last value posted under `name`. */
  function LastValue(fields: seq<Field>, name: string): (v: Option<string>)
    decreases |fields|
  {
    if |fields| == 0 then None
    else if fields[|fields| - 1].0 == name then Some(fields[|fields| - 1].1)
    else LastValue(fields[..|fields| - 1], name)
  }

  /** Posting one more field: an existing name takes the new value in place,
      a new name is added at the end. */
  function Put(items: seq<Field>, field: Field): seq<Field> {
    var i := IndexOfName(items, field.0);
    if i < |items| then items[i := field] else items + [field]
  }

  /** The form's `items()`: one field per distinct name, in order of first
      appearance, each with the last value posted under its name. */
  function PostItems(fields: seq<Field>): seq<Field>
    decreases |fields|
  {
    if |fields| == 0 then []
    else Put(PostItems(fields[..|fields| - 1]), fields[|fields| - 1])
  }

  predicate DistinctNames(fields: seq<Field>) {
    forall i, j | 0 <= i < j < |fields| :: fields[i].0 != fields[j].0
  }

  /** Adding one field at the end of the body moves first positions only of
      names it introduces. */
  lemma IndexOfNameSnoc(fields: seq<Field>, x: Field, name: string)
    ensures name in NamesOf(fields) ==> IndexOfName(fields + [x], name) == IndexOfName(fields, name)
    ensures name !in NamesOf(fields) && x.0 == name ==> IndexOfName(fields + [x], name) == |fields|
  {
    var all := fields + [x];
    var i := IndexOfName(fields, name);
    if i < |fields| {
      assert all[i] == fields[i];
      forall j | 0 <= j < i ensures all[j].0 != name { assert all[j] == fields[j]; }
    } else if x.0 == name {
      forall j | 0 <= j < |fields| ensures all[j].0 != name { assert all[j] == fields[j]; }
      assert all[|fields|] == x;
    }
  }

  lemma NamesOfSnoc(fields: seq<Field>, x: Field)
    ensures NamesOf(fields + [x]) == NamesOf(fields) + {x.0}
  {
    var all := fields + [x];
    forall n | n in NamesOf(all) ensures n in NamesOf(fields) + {x.0} {
      var j :| 0 <= j < |all| && all[j].0 == n;
      if j < |fields| { assert all[j] == fields[j]; }
    }
    forall n | n in NamesOf(fields) ensures n in NamesOf(all) {
      var j :| 0 <= j < |fields| && fields[j].0 == n;
      assert all[j] == fields[j];
    }
    assert all[|fields|] == x;
  }

  /** `Put` keeps names distinct, keeps every name it had and adds the new
      one, and changes only the value stored under the new field's name. */
  lemma PutShape(items: seq<Field>, x: Field)
    requires DistinctNames(items)
    ensures DistinctNames(Put(items, x))
    ensures NamesOf(Put(items, x)) == NamesOf(items) + {x.0}
    ensures x.0 in NamesOf(items) ==>
      |Put(items, x)| == |items| && forall i | 0 <= i < |items| :: Put(items, x)[i].0 == items[i].0
    ensures x.0 !in NamesOf(items) ==> Put(items, x) == items + [x]
    ensures forall i | 0 <= i < |Put(items, x)| ::
      if Put(items, x)[i].0 == x.0 then Put(items, x)[i] == x
      else i < |items| && Put(items, x)[i] == items[i]
  {
    var i := IndexOfName(items, x.0);
    var r := Put(items, x);
    if i < |items| {
      forall a | 0 <= a < |r| && a != i ensures r[a] == items[a] && r[a].0 != x.0 { }
      assert NamesOf(r) == NamesOf(items) + {x.0} by {
        forall n | n in NamesOf(r) ensures n in NamesOf(items) + {x.0} {
          var j :| 0 <= j < |r| && r[j].0 == n;
        }
        forall n | n in NamesOf(items) ensures n in NamesOf(r) {
          var j :| 0 <= j < |items| && items[j].0 == n;
          assert r[j].0 == items[j].0;
        }
      }
    } else {
      NamesOfSnoc(items, x);
      forall a, b | 0 <= a < b < |r| ensures r[a].0 != r[b].0 {
        if b == |items| { assert r[a] == items[a] && items[a].0 in NamesOf(items); }
      }
    }
  }

  /** The names of `items()` are exactly the posted names, each once. */
  lemma {:induction false} PostItemsNames(fields: seq<Field>)
    ensures DistinctNames(PostItems(fields))
    ensures NamesOf(PostItems(fields)) == NamesOf(fields)
    decreases |fields|
  {
    if |fields| > 0 {
      var init, x := fields[..|fields| - 1], fields[|fields| - 1];
      PostItemsNames(init);
      PutShape(PostItems(init), x);
      assert fields == init + [x];
      NamesOfSnoc(init, x);
    }
  }

  /** Each name of `items()` carries the last value posted under it. */
  lemma {:induction false} PostItemsLastValue(fields: seq<Field>)
    ensures forall i | 0 <= i < |PostItems(fields)| ::
      LastValue(fields, PostItems(fields)[i].0) == Some(PostItems(fields)[i].1)
    decreases |fields|
  {
    if |fields| > 0 {
      var init, x := fields[..|fields| - 1], fields[|fields| - 1];
      PostItemsLastValue(init);
      PostItemsNames(init);
      PutShape(PostItems(init), x);
    }
  }

  /** The names of `items()` come in order of their first appearance. */
  lemma {:induction false} PostItemsOrder(fields: seq<Field>)
    ensures forall i, j | 0 <= i < j < |PostItems(fields)| ::
      IndexOfName(fields, PostItems(fields)[i].0) < IndexOfName(fields, PostItems(fields)[j].0)
    decreases |fields|
  {
    if |fields| > 0 {
      var init, x := fields[..|fields| - 1], fields[|fields| - 1];
      var items := PostItems(init);
      var r := PostItems(fields);
      PostItemsOrder(init);
      PostItemsNames(init);
      PutShape(items, x);
      assert fields == init + [x];
      forall i | 0 <= i < |items| ensures items[i].0 in NamesOf(init) {
        assert items[i].0 in NamesOf(items);
      }
      forall i | 0 <= i < |r| && r[i].0 in NamesOf(init)
        ensures IndexOfName(fields, r[i].0) == IndexOfName(init, r[i].0)
      {
        IndexOfNameSnoc(init, x, r[i].0);
      }
      if x.0 !in NamesOf(init) {
        IndexOfNameSnoc(init, x, x.0);
      }
    }
  }

  /** A body without repeated names is iterated as posted. */
  lemma {:induction false} PostItemsOfDistinct(fields: seq<Field>)
    requires DistinctNames(fields)
    ensures PostItems(fields) == fields
    decreases |fields|
  {
    if |fields| > 0 {
      var init, x := fields[..|fields| - 1], fields[|fields| - 1];
      assert DistinctNames(init);
      PostItemsOfDistinct(init);
      assert x.0 !in NamesOf(init);
      assert fields == init + [x];
    }
  }

  /** A name posted twice is iterated once, with its later value. */
  lemma RepeatedNameCollapses(name: string, earlier: string, later: string)
    ensures PostItems([(name, earlier), (name, later)]) == [(name, later)]
    ensures PostItems([(name, later)]) == [(name, later)]
  {
    var body := [(name, earlier), (name, later)];
    assert body[..1] == [(name, earlier)];
    PostItemsOfDistinct(body[..1]);
    assert IndexOfName(body[..1], name) == 0;
    PostItemsOfDistinct([(name, later)]);
  }

  /** A name has a last value exactly when it was posted. */
  lemma {:induction false} LastValuePresent(fields: seq<Field>, name: string)
    ensures LastValue(fields, name).Some? <==> name in NamesOf(fields)
    decreases |fields|
  {
    if |fields| > 0 {
      var init := fields[..|fields| - 1];
      assert fields == init + [fields[|fields| - 1]];
      NamesOfSnoc(init, fields[|fields| - 1]);
      LastValuePresent(init, name);
    }
  }

  /** A field whose name the rest of the body never repeats stays first. */
  lemma {:induction false} PostItemsCons(x: Field, fields: seq<Field>)
    requires x.0 !in NamesOf(fields)
    ensures PostItems([x] + fields) == [x] + PostItems(fields)
    decreases |fields|
  {
    if |fields| == 0 {
      assert [x] + fields == [x];
      assert [x][..0] == [];
    } else {
      var init, y := fields[..|fields| - 1], fields[|fields| - 1];
      assert fields == init + [y];
      NamesOfSnoc(init, y);
      var all := [x] + fields;
      assert all[..|all| - 1] == [x] + init && all[|all| - 1] == y;
      PostItemsCons(x, init);
      PutBehindHead(x, PostItems(init), y);
    }
  }

  /** Posting a field whose name differs from the first item's leaves that
      item first. */
  lemma PutBehindHead(x: Field, items: seq<Field>, y: Field)
    requires x.0 != y.0
    ensures Put([x] + items, y) == [x] + Put(items, y)
  {
    assert ([x] + items)[1..] == items;
    var i := IndexOfName(items, y.0);
    assert IndexOfName([x] + items, y.0) == 1 + i;
    if i < |items| {
      assert ([x] + items)[1 + i := y] == [x] + items[i := y];
    } else {
      assert ([x] + items) + [y] == [x] + (items + [y]);
    }
  }

  lemma NamesOfCons(x: Field, fields: seq<Field>)
    ensures NamesOf([x] + fields) == NamesOf(fields) + {x.0}
  {
    var all := [x] + fields;
    forall n | n in NamesOf(all) ensures n in NamesOf(fields) + {x.0} {
      var j :| 0 <= j < |all| && all[j].0 == n;
      if j > 0 { assert all[j] == fields[j - 1]; }
    }
    forall n | n in NamesOf(fields) ensures n in NamesOf(all) {
      var j :| 0 <= j < |fields| && fields[j].0 == n;
      assert all[j + 1] == fields[j];
    }
    assert all[0] == x;
  }
}

=== FILE: rounding.dfy ===
/** Rounding of an exact quotient `n / d` to an integer with ties going to
    the even neighbour. This is what `Decimal.quantize` does under Python's
    default decimal context (rounding mode ROUND_HALF_EVEN), both when a
    final grade is quantized to `0.01` and when a submitted score is fitted
    to a two-place decimal column. */
module Rounding {

  function Abs(x: int): nat {
    if x < 0 then -x else x
  }

  /** The integer nearest to `n / d`; on an exact tie, the even one. */
  function RoundHalfEven(n: int, d: int): (q: int)
    requires d > 0
    ensures 2 * Abs(n - q * d) <= d
    ensures 2 * Abs(n - q * d) == d ==> q % 2 == 0
  {
    var f := n / d;
    var r := n % d;
    assert n - f * d == r;
    assert n - (f + 1) * d == r - d;
    if 2 * r < d then f
    else if 2 * r > d then f + 1
    else if f % 2 == 0 then f
    else f + 1
  }

  /** Consecutive multiples of a positive `d` are at least `d` apart. */
  lemma MulGap(a: int, b: int, d: int)
    requires d > 0 && a < b
    ensures a * d + d <= b * d
  {
    var k := b - a - 1;
    assert k >= 0;
    assert k * d >= 0;
    assert b * d == a * d + d + k * d;
  }

  /** The two conditions of `RoundHalfEven`'s contract pin the result down:
      no other integer meets them. Two distinct integers within d/2 of n/d
      are neighbours at a tie, so they cannot both be even. */
  lemma RoundHalfEvenUnique(n: int, d: int, q: int)
    requires d > 0
    requires 2 * Abs(n - q * d) <= d
    requires 2 * Abs(n - q * d) == d ==> q % 2 == 0
    ensures q == RoundHalfEven(n, d)
  {
    var p := RoundHalfEven(n, d);
    if q != p {
      var lo := if q < p then q else p;
      var hi := if q < p then p else q;
      var plo := lo * d;
      var phi := hi * d;
      MulGap(lo, hi, d);
      assert plo + d <= phi;
      if hi >= lo + 2 {
        MulGap(lo + 1, hi, d);
        assert false;
      }
      assert false;
    }
  }

  /** Floor division is monotone. */
  lemma DivMonotone(n1: int, n2: int, d: int)
    requires d > 0 && n1 <= n2
    ensures n1 / d <= n2 / d
    ensures n1 / d == n2 / d ==> n1 % d <= n2 % d
  {
    var f1, f2 := n1 / d, n2 / d;
    var p1, p2 := f1 * d, f2 * d;
    assert n1 == p1 + n1 % d && n2 == p2 + n2 % d;
    if f1 > f2 {
      MulGap(f2, f1, d);
      assert false;
    }
  }

  /** Rounding is monotone. */
  lemma RoundHalfEvenMonotone(n1: int, n2: int, d: int)
    requires d > 0 && n1 <= n2
    ensures RoundHalfEven(n1, d) <= RoundHalfEven(n2, d)
  {
    DivMonotone(n1, n2, d);
    var f1, f2 := n1 / d, n2 / d;
    assert f1 <= RoundHalfEven(n1, d) <= f1 + 1;
    assert f2 <= RoundHalfEven(n2, d) <= f2 + 1;
  }

  /** An exact multiple rounds to its quotient. */
  lemma RoundHalfEvenExact(k: int, d: int)
    requires d > 0
    ensures RoundHalfEven(k * d, d) == k
  {
    RoundHalfEvenUnique(k * d, d, k);
  }

  /** A quotient at most `k` rounds to at most `k`, and one at least `k`
      rounds to at least `k`. */
  lemma RoundHalfEvenBounds(n: int, d: int, k: int)
    requires d > 0
    ensures n <= k * d ==> RoundHalfEven(n, d) <= k
    ensures k * d <= n ==> k <= RoundHalfEven(n, d)
  {
    RoundHalfEvenExact(k, d);
    if n <= k * d {
      RoundHalfEvenMonotone(n, k * d, d);
    }
    if k * d <= n {
      RoundHalfEvenMonotone(k * d, n, d);
    }
  }
}

=== FILE: schema.dfy ===
/** The persisted state of the course-management application: profiles with
    a role, courses, evaluation components and grades, together with the
    constraints the schema places on them, stated as a store invariant. */
module Schema {
  import opened Wrappers

  type UserId = int
  type CourseId = int
  type ComponentId = int

  /** A grade row is identified by its (student, component) pair. */
  type GradeKey = (UserId, ComponentId)

  /** A score in hundredths of a point: 80.50 is 8050. */
  type Hundredths = int

  const CourseCodeMaxLength := 10
  const CourseNameMaxLength := 255
  const ComponentNameMaxLength := 100
  /** Upper end of a small positive integer column. */
  const PercentageMax := 32767
  /** A decimal with 5 digits, 2 of them after the point: at most 999.99. */
  const ScoreMaxHundredths := 99999

  // ---------------------------------------------------------------------------
  // Roles

  datatype Role = Student | Instructor | DepartmentHead

  /** The value stored in the profile's role column for each declared choice. */
  function RoleName(r: Role): string {
    match r
    case Student => "student"
    case Instructor => "instructor"
    case DepartmentHead => "department_head"
  }

  /** Reads a stored role string back as one of the declared choices. */
  function ParseRole(s: string): (r: Option<Role>)
    ensures r.Some? ==> RoleName(r.value) == s
    ensures r.None? ==> forall role: Role :: RoleName(role) != s
  {
    if s == "student" then Some(Student)
    else if s == "instructor" then Some(Instructor)
    else if s == "department_head" then Some(DepartmentHead)
    else None
  }

  // ---------------------------------------------------------------------------
  // Rows

  datatype Course = Course(
    code: string,
    name: string,
    instructors: set<UserId>,
    students: set<UserId>)

  datatype Component = Component(
    id: ComponentId,
    course: CourseId,
    name: string,
    percentage: int)

  /** The whole database. A user has at most one profile (`profiles` is a map
      keyed by user), a (student, component) pair at most one grade row
      (`grades` is a map keyed by the pair; `None` is a row whose score is
      null). Components are kept in ascending id order, the order in which the
      database assigns ids. */
  datatype Store = Store(
    users: set<UserId>,
    profiles: map<UserId, string>,
    courses: map<CourseId, Course>,
    components: seq<Component>,
    grades: map<GradeKey, Option<Hundredths>>,
    nextUserId: UserId,
    nextComponentId: ComponentId)

  predicate ValidScore(h: Hundredths) {
    -ScoreMaxHundredths <= h <= ScoreMaxHundredths
  }

  predicate ValidScoreCell(score: Option<Hundredths>) {
    score.None? || ValidScore(score.value)
  }

  predicate Ascending(cs: seq<Component>) {
    forall i, j :: 0 <= i < j < |cs| ==> cs[i].id < cs[j].id
  }

  /** Within one course, a name identifies at most one component. */
  predicate NamesUniquePerCourse(cs: seq<Component>) {
    forall a, b | a in cs && b in cs && a.course == b.course && a.name == b.name :: a.id == b.id
  }

  function ComponentIds(st: Store): set<ComponentId> {
    set c | c in st.components :: c.id
  }

  predicate ProfilesValid(st: Store) {
    forall u | u in st.profiles ::
      u in st.users && ParseRole(st.profiles[u]).Some?
  }

  predicate CoursesValid(st: Store) {
    && (forall c | c in st.courses ::
          && |st.courses[c].code| <= CourseCodeMaxLength
          && |st.courses[c].name| <= CourseNameMaxLength
          && st.courses[c].instructors <= st.users
          && st.courses[c].students <= st.users)
    && (forall c1, c2 | c1 in st.courses && c2 in st.courses && c1 != c2 ::
          st.courses[c1].code != st.courses[c2].code)
  }

  predicate ComponentsValid(st: Store) {
    && Ascending(st.components)
    && NamesUniquePerCourse(st.components)
    && forall c | c in st.components ::
         && c.id < st.nextComponentId
         && c.course in st.courses
         && |c.name| <= ComponentNameMaxLength
         && 0 <= c.percentage <= PercentageMax
  }

  predicate GradesValid(st: Store) {
    forall k | k in st.grades ::
      k.0 in st.users && k.1 in ComponentIds(st) && ValidScoreCell(st.grades[k])
  }

  /** Every constraint the schema declares holds of the store. */
  predicate Valid(st: Store) {
    && (forall u | u in st.users :: u < st.nextUserId)
    && ProfilesValid(st)
    && CoursesValid(st)
    && ComponentsValid(st)
    && GradesValid(st)
  }

  /** The empty database. */
  function EmptyStore(): (st: Store)
    ensures Valid(st)
    ensures st.users == {} && st.grades == map[] && st.components == []
  {
    Store({}, map[], map[], [], map[], 1, 1)
  }

  // ---------------------------------------------------------------------------
  // Reading

  /** The components of `cs` satisfying `p`, in their original order. */
  function Filter(cs: seq<Component>, p: Component -> bool): (r: seq<Component>)
    ensures forall c :: c in r <==> c in cs && p(c)
    ensures |r| <= |cs|
    ensures (forall c | c in cs :: !p(c)) ==> r == []
  {
    if |cs| == 0 then []
    else (if p(cs[0]) then [cs[0]] else []) + Filter(cs[1..], p)
  }

  /** Filtering keeps the id order. */
  lemma {:induction false} FilterAscending(cs: seq<Component>, p: Component -> bool)
    requires Ascending(cs)
    ensures Ascending(Filter(cs, p))
  {
    if |cs| > 0 {
      var rest := Filter(cs[1..], p);
      FilterAscending(cs[1..], p);
      forall c | c in rest ensures cs[0].id < c.id {
        var j :| 0 <= j < |cs[1..]| && cs[1..][j] == c;
        assert cs[j + 1] == c;
      }
      if p(cs[0]) {
        AscendingCons(cs[0], rest);
      }
    }
  }

  /** A component below everything in an ascending list can go in front. */
  lemma AscendingCons(x: Component, rest: seq<Component>)
    requires Ascending(rest)
    requires forall c | c in rest :: x.id < c.id
    ensures Ascending([x] + rest)
  {
    var all := [x] + rest;
    forall i, j | 0 <= i < j < |all| ensures all[i].id < all[j].id {
      assert all[j] == rest[j - 1];
      if i > 0 {
        assert all[i] == rest[i - 1];
      }
    }
  }

  /** Filtering distributes over appending one component. */
  lemma {:induction false} FilterAppend(cs: seq<Component>, x: Component, p: Component -> bool)
    ensures Filter(cs + [x], p) == Filter(cs, p) + (if p(x) then [x] else [])
    decreases |cs|
  {
    if |cs| == 0 {
      assert [x][1..] == [];
      assert cs + [x] == [x];
    } else {
      var ys := cs + [x];
      var head := if p(cs[0]) then [cs[0]] else [];
      var tail := if p(x) then [x] else [];
      assert ys[0] == cs[0] && ys[1..] == cs[1..] + [x];
      calc {
        Filter(ys, p);
        head + Filter(cs[1..] + [x], p);
        { FilterAppend(cs[1..], x, p); }
        head + (Filter(cs[1..], p) + tail);
        (head + Filter(cs[1..], p)) + tail;
        Filter(cs, p) + tail;
      }
    }
  }

  /** The components of a course in id order (`order_by('id')`). */
  function ComponentsOf(st: Store, course: CourseId): (r: seq<Component>)
    ensures forall c :: c in r <==> c in st.components && c.course == course
    ensures Ascending(st.components) ==> Ascending(r)
  {
    var p := (c: Component) => c.course == course;
    assert Ascending(st.components) ==> Ascending(Filter(st.components, p)) by {
      if Ascending(st.components) { FilterAscending(st.components, p); }
    }
    Filter(st.components, p)
  }

  /** What a lookup of the pair in the grade table yields: the score when a
      row with a score exists, `None` both for a missing row and for a row
      whose score is null. */
  function ScoreOf(grades: map<GradeKey, Option<Hundredths>>, k: GradeKey): (r: Option<Hundredths>)
    ensures r.Some? <==> k in grades && grades[k].Some?
    ensures r.Some? ==> grades[k] == r
  {
    if k in grades then grades[k] else None
  }

  /** The role the request sees: the profile's role, or `None` when the user
      has no profile. */
  function ProfileRole(st: Store, u: UserId): (r: Option<string>)
    ensures r.Some? <==> u in st.profiles
    ensures r.Some? ==> r.value == st.profiles[u]
    ensures Valid(st) && r.Some? ==> ParseRole(r.value).Some?
  {
    if u in st.profiles then Some(st.profiles[u]) else None
  }

  // ---------------------------------------------------------------------------
  // Writing

  /** Creating a user fires the post-save hook that gives the new user a
      profile with role `student`. */
  function CreateUser(st: Store): (result: (Store, UserId))
    requires Valid(st)
    ensures var (st', u) := result;
      && u !in st.users
      && st'.users == st.users + {u}
      && st'.profiles == st.profiles[u := RoleName(Student)]
      && ProfileRole(st', u) == Some("student")
      && st' == st.(users := st'.users, profiles := st'.profiles, nextUserId := st'.nextUserId)
    ensures Valid(result.0)
  {
    var u := st.nextUserId;
    (st.(users := st.users + {u},
         profiles := st.profiles[u := RoleName(Student)],
         nextUserId := u + 1),
     u)
  }

  /** Deleting a user cascades to the profile, the user's course memberships
      and the user's grades. */
  function DeleteUser(st: Store, u: UserId): (st': Store)
    ensures st' == st.(users := st'.users, profiles := st'.profiles, courses := st'.courses, grades := st'.grades)
    ensures u !in st'.users && u !in st'.profiles
    ensures st'.users == st.users - {u}
    ensures st'.profiles == st.profiles - {u}
    ensures forall k :: k in st'.grades <==> k in st.grades && k.0 != u
    ensures forall k | k in st'.grades :: st'.grades[k] == st.grades[k]
    ensures st'.components == st.components && st'.courses.Keys == st.courses.Keys
    ensures forall c | c in st'.courses ::
      && st'.courses[c].code == st.courses[c].code && st'.courses[c].name == st.courses[c].name
      && st'.courses[c].instructors == st.courses[c].instructors - {u}
      && st'.courses[c].students == st.courses[c].students - {u}
    ensures Valid(st) ==> Valid(st')
  {
    var courses := map c | c in st.courses ::
      st.courses[c].(instructors := st.courses[c].instructors - {u},
                     students := st.courses[c].students - {u});
    st.(users := st.users - {u},
        profiles := st.profiles - {u},
        courses := courses,
        grades := map k | k in st.grades && k.0 != u :: st.grades[k])
  }

  /** Deleting a component cascades to its grade rows. */
  function DeleteComponent(st: Store, id: ComponentId): (st': Store)
    ensures st' == st.(components := st'.components, grades := st'.grades)
    ensures id !in ComponentIds(st')
    ensures forall c :: c in st'.components <==> c in st.components && c.id != id
    ensures forall k :: k in st'.grades <==> k in st.grades && k.1 != id
    ensures forall k | k in st'.grades :: st'.grades[k] == st.grades[k]
    ensures Valid(st) ==> Valid(st')
  {
    var st' := st.(components := Filter(st.components, (c: Component) => c.id != id),
                   grades := map k | k in st.grades && k.1 != id :: st.grades[k]);
    assert Valid(st) ==> Valid(st') by {
      if Valid(st) { DeleteComponentValid(st, id, st'); }
    }
    st'
  }

  lemma DeleteComponentValid(st: Store, id: ComponentId, st': Store)
    requires Valid(st)
    requires st' == st.(components := Filter(st.components, (c: Component) => c.id != id),
                        grades := map k | k in st.grades && k.1 != id :: st.grades[k])
    ensures Valid(st')
  {
    FilterAscending(st.components, (c: Component) => c.id != id);
    forall k | k in st'.grades ensures k.1 in ComponentIds(st') {
      var c :| c in st.components && c.id == k.1;
      assert c in st'.components;
    }
    NarrowedValid(st, st');
  }

  /** Whether `id` names a component of `course`. */
  predicate ComponentOfCourse(st: Store, id: ComponentId, course: CourseId) {
    exists c | c in st.components :: c.id == id && c.course == course
  }

  /** Deleting a course cascades to its components and their grade rows. */
  function DeleteCourse(st: Store, course: CourseId): (st': Store)
    ensures st' == st.(courses := st'.courses, components := st'.components, grades := st'.grades)
    ensures st'.courses == st.courses - {course}
    ensures ComponentsOf(st', course) == []
    ensures forall c :: c in st'.components <==> c in st.components && c.course != course
    ensures forall k :: k in st'.grades <==> k in st.grades && !ComponentOfCourse(st, k.1, course)
    ensures forall k | k in st'.grades :: st'.grades[k] == st.grades[k]
    ensures Valid(st) ==> Valid(st')
  {
    var p := (c: Component) => c.course != course;
    var doomed := set c | c in st.components && c.course == course :: c.id;
    var st' := st.(courses := st.courses - {course},
                   components := Filter(st.components, p),
                   grades := map k | k in st.grades && k.1 !in doomed :: st.grades[k]);
    assert Valid(st) ==> Valid(st') by {
      if Valid(st) { DeleteCourseValid(st, course, doomed, st'); }
    }
    st'
  }

  lemma DeleteCourseValid(st: Store, course: CourseId, doomed: set<ComponentId>, st': Store)
    requires Valid(st)
    requires doomed == set c | c in st.components && c.course == course :: c.id
    requires st' == st.(courses := st.courses - {course},
                        components := Filter(st.components, (c: Component) => c.course != course),
                        grades := map k | k in st.grades && k.1 !in doomed :: st.grades[k])
    ensures Valid(st')
  {
    FilterAscending(st.components, (c: Component) => c.course != course);
    forall c | c in st'.components ensures c.course in st'.courses {
      assert c in st.components;
    }
    forall k | k in st'.grades ensures k.1 in ComponentIds(st') {
      var c :| c in st.components && c.id == k.1;
      assert c in st'.components;
    }
    NarrowedValid(st, st');
  }

  /** A store obtained by dropping rows (courses, components, grades) whose
      dependants have been dropped with them is still valid. */
  lemma NarrowedValid(st: Store, st': Store)
    requires Valid(st)
    requires st'.users == st.users && st'.profiles == st.profiles
    requires st'.nextUserId == st.nextUserId && st'.nextComponentId == st.nextComponentId
    requires st'.courses.Keys <= st.courses.Keys
    requires forall c | c in st'.courses :: st'.courses[c] == st.courses[c]
    requires forall c | c in st'.components :: c in st.components && c.course in st'.courses
    requires Ascending(st'.components)
    requires forall k | k in st'.grades :: k in st.grades && st'.grades[k] == st.grades[k]
    requires forall k | k in st'.grades :: k.1 in ComponentIds(st')
    ensures Valid(st')
  {
    assert ProfilesValid(st');
    assert CoursesValid(st');
    assert ComponentsValid(st');
    assert GradesValid(st');
  }
}

=== FILE: text.dfy ===
/** The string operations the grade-entry code relies on: Python's
    `str.startswith`, `str.split` with a one-character separator, and the
    decimal literals accepted by `int()` and `decimal.Decimal()`. */
module Text {
  import opened Wrappers

  predicate StartsWith(s: string, prefix: string) {
    |prefix| <= |s| && s[..|prefix|] == prefix
  }

  /** Number of occurrences of `c` in `s`. */
  function Count(s: string, c: char): nat
    decreases |s|
  {
    if |s| == 0 then 0
    else (if s[0] == c then 1 else 0) + Count(s[1..], c)
  }

  /** `s.split(sep)`: the pieces between successive separators, so there is
      always one piece more than there are separators. */
  function Split(s: string, sep: char): (parts: seq<string>)
    ensures |parts| == Count(s, sep) + 1
    ensures forall i :: 0 <= i < |parts| ==> sep !in parts[i]
    decreases |s|
  {
    if |s| == 0 then [""]
    else
      var rest := Split(s[1..], sep);
      if s[0] == sep then [""] + rest
      else [[s[0]] + rest[0]] + rest[1..]
  }

  /** `sep.join(parts)`. */
  function Join(parts: seq<string>, sep: char): string
    requires |parts| >= 1
    decreases |parts|
  {
    if |parts| == 1 then parts[0]
    else parts[0] + [sep] + Join(parts[1..], sep)
  }

  /** Joining the pieces of a split gives back the original string. */
  lemma {:induction false} JoinOfSplit(s: string, sep: char)
    ensures Join(Split(s, sep), sep) == s
    decreases |s|
  {
    if |s| > 0 {
      var rest := Split(s[1..], sep);
      JoinOfSplit(s[1..], sep);
      if s[0] == sep {
        assert Split(s, sep) == [""] + rest;
        assert ([""] + rest)[1..] == rest;
        assert s == [s[0]] + s[1..];
      } else {
        var parts := Split(s, sep);
        assert parts == [[s[0]] + rest[0]] + rest[1..];
        if |rest| == 1 {
          assert Join(rest, sep) == rest[0];
        } else {
          assert Join(rest, sep) == rest[0] + [sep] + Join(rest[1..], sep);
          assert parts[1..] == rest[1..];
        }
        assert s == [s[0]] + s[1..];
      }
    }
  }

  /** Splitting a piece free of separators, followed by a separator, peels
      that piece off. */
  lemma {:induction false} SplitPeel(a: string, sep: char, t: string)
    requires sep !in a
    ensures Split(a + [sep] + t, sep) == [a] + Split(t, sep)
    decreases |a|
  {
    if |a| == 0 {
      assert a + [sep] + t == [sep] + t;
      assert ([sep] + t)[1..] == t;
    } else {
      var s := a + [sep] + t;
      assert s[0] == a[0];
      assert s[1..] == a[1..] + [sep] + t;
      SplitPeel(a[1..], sep, t);
      assert [a[0]] + a[1..] == a;
    }
  }

  /** A piece free of separators splits into itself. */
  lemma {:induction false} SplitOfPlain(a: string, sep: char)
    requires sep !in a
    ensures Split(a, sep) == [a]
    decreases |a|
  {
    if |a| > 0 {
      assert sep !in a[1..];
      SplitOfPlain(a[1..], sep);
      assert [a[0]] + a[1..] == a;
    }
  }

  /** Splitting a join of separator-free pieces gives back the pieces. */
  lemma {:induction false} SplitOfJoin(parts: seq<string>, sep: char)
    requires |parts| >= 1
    requires forall i :: 0 <= i < |parts| ==> sep !in parts[i]
    ensures Split(Join(parts, sep), sep) == parts
    decreases |parts|
  {
    if |parts| == 1 {
      SplitOfPlain(parts[0], sep);
    } else {
      SplitOfJoin(parts[1..], sep);
      SplitPeel(parts[0], sep, Join(parts[1..], sep));
      assert [parts[0]] + parts[1..] == parts;
    }
  }

  // ---------------------------------------------------------------------------
  // Decimal digits

  predicate IsDigit(c: char) {
    '0' <= c <= '9'
  }

  predicate AllDigits(s: string) {
    forall i :: 0 <= i < |s| ==> IsDigit(s[i])
  }

  function DigitValue(c: char): nat
    requires IsDigit(c)
  {
    (c as int) - ('0' as int)
  }

  function DigitChar(d: nat): (c: char)
    requires d < 10
    ensures IsDigit(c) && DigitValue(c) == d
  {
    (('0' as int) + d) as char
  }

  /** The number a string of decimal digits denotes (leading zeros allowed). */
  function DigitsValue(s: string): nat
    requires AllDigits(s)
    decreases |s|
  {
    if |s| == 0 then 0
    else DigitsValue(s[..|s| - 1]) * 10 + DigitValue(s[|s| - 1])
  }

  lemma DigitsValueSnoc(s: string, c: char)
    requires AllDigits(s) && IsDigit(c)
    ensures AllDigits(s + [c])
    ensures DigitsValue(s + [c]) == DigitsValue(s) * 10 + DigitValue(c)
  {
    assert (s + [c])[..|s|] == s;
  }

  /** The canonical decimal spelling of a natural number, which reads back as
      that number. */
  function NatToString(n: nat): (s: string)
    ensures |s| >= 1 && AllDigits(s)
    ensures DigitsValue(s) == n
    decreases n
  {
    if n < 10 then [DigitChar(n)]
    else
      var prefix := NatToString(n / 10);
      DigitsValueSnoc(prefix, DigitChar(n % 10));
      prefix + [DigitChar(n % 10)]
  }

  /** Python's `int()` on a string without whitespace or underscores: an
      optional sign followed by at least one ASCII digit. */
  function ParseInt(s: string): (r: Option<int>)
    ensures r.Some? ==> |s| >= 1 && (IsDigit(s[0]) || s[0] == '+' || s[0] == '-')
    ensures r.Some? && r.value < 0 ==> s[0] == '-'
  {
    if |s| >= 1 && (s[0] == '+' || s[0] == '-') then
      var body := s[1..];
      if |body| >= 1 && AllDigits(body) then
        var magnitude: int := DigitsValue(body);
        Some(if s[0] == '-' then -magnitude else magnitude)
      else None
    else if |s| >= 1 && AllDigits(s) then Some(DigitsValue(s))
    else None
  }

  /** A character other than a digit after the first place rules the text
      out as an integer. */
  lemma ParseIntRejects(s: string, i: nat)
    requires 0 < i < |s| && !IsDigit(s[i])
    ensures ParseInt(s) == None
  {
    assert s[1..][i - 1] == s[i];
  }

  lemma ParseIntOfNatToString(n: nat)
    ensures ParseInt(NatToString(n)) == Some(n)
  {
  }

  /** A finite decimal number `coefficient / 10^places`, the value
      `decimal.Decimal` builds from a plain literal. */
  datatype Decimal = Decimal(coefficient: int, places: nat)

  function Pow10(k: nat): (p: nat)
    ensures p >= 1
  {
    if k == 0 then 1 else 10 * Pow10(k - 1)
  }

  /** `decimal.Decimal(s)` for literals without exponent, whitespace or
      underscores: an optional sign, then an unsigned literal. */
  function ParseDecimal(s: string): (r: Option<Decimal>)
    ensures r.Some? ==> |s| >= 1
    ensures r.Some? && r.value.coefficient < 0 ==> s[0] == '-'
  {
    var signed := |s| >= 1 && (s[0] == '+' || s[0] == '-');
    match ParseUnsignedDecimal(if signed then s[1..] else s)
    case None => None
    case Some(d) =>
      Some(if signed && s[0] == '-' then Decimal(-d.coefficient, d.places) else d)
  }

  /** Digits with at most one point and at least one digit in all. */
  function ParseUnsignedDecimal(body: string): (r: Option<Decimal>)
    ensures r.Some? ==> |body| >= 1 && r.value.coefficient >= 0
  {
    var parts := Split(body, '.');
    if |parts| > 2 then None
    else
      var whole := parts[0];
      var fraction := if |parts| == 2 then parts[1] else "";
      if AllDigits(whole) && AllDigits(fraction) && |whole| + |fraction| >= 1 then
        Some(Decimal(DigitsValue(whole + fraction), |fraction|))
      else None
  }

  /** A digit string holds no character other than digits. */
  lemma DigitsLack(s: string, c: char)
    requires AllDigits(s) && !IsDigit(c)
    ensures c !in s
  {
  }

  lemma ParseUnsignedOfPointed(whole: string, fraction: string)
    requires AllDigits(whole) && AllDigits(fraction) && |whole| >= 1
    ensures AllDigits(whole + fraction)
    ensures ParseUnsignedDecimal(whole + "." + fraction)
            == Some(Decimal(DigitsValue(whole + fraction), |fraction|))
  {
    DigitsLack(whole, '.');
    DigitsLack(fraction, '.');
    assert Join([whole, fraction], '.') == whole + "." + fraction by {
      assert Join([whole, fraction], '.') == whole + ['.'] + Join([fraction], '.');
    }
    SplitOfJoin([whole, fraction], '.');
    assert AllDigits(whole + fraction);
  }

  /** How a score with two decimal places prints (`str` of a two-place
      `Decimal`): sign, whole part, point, exactly two fraction digits. */
  function FormatHundredths(h: int): string {
    if h < 0 then "-" + FormatMagnitude(-h) else FormatMagnitude(h)
  }

  /** The unsigned part of a printed two-place score. */
  function FormatMagnitude(m: nat): string {
    NatToString(m / 100) + "." + [DigitChar(m % 100 / 10), DigitChar(m % 10)]
  }

  /** A leading digit means no sign; a leading minus negates the rest. */
  lemma ParseDecimalSign(body: string)
    requires |body| >= 1 && IsDigit(body[0])
    ensures ParseDecimal(body) == ParseUnsignedDecimal(body)
    ensures ParseUnsignedDecimal(body).Some? ==>
      ParseDecimal("-" + body) == Some(Decimal(-ParseUnsignedDecimal(body).value.coefficient,
                                                ParseUnsignedDecimal(body).value.places))
  {
    assert ("-" + body)[1..] == body;
  }

  lemma ParseUnsignedOfMagnitude(m: nat)
    ensures |FormatMagnitude(m)| >= 1 && IsDigit(FormatMagnitude(m)[0])
    ensures ParseUnsignedDecimal(FormatMagnitude(m)) == Some(Decimal(m, 2))
  {
    var whole := NatToString(m / 100);
    var fraction := [DigitChar(m % 100 / 10), DigitChar(m % 10)];
    ParseUnsignedOfPointed(whole, fraction);
    DigitsOfHundredths(m);
    assert FormatMagnitude(m)[0] == whole[0];
  }

  /** A printed two-place score parses back to the same value. */
  lemma ParseDecimalOfFormat(h: int)
    ensures ParseDecimal(FormatHundredths(h)) == Some(Decimal(h, 2))
  {
    var m := if h < 0 then -h else h;
    ParseUnsignedOfMagnitude(m);
    ParseDecimalSign(FormatMagnitude(m));
  }

  lemma DigitsOfHundredths(m: nat)
    ensures AllDigits(NatToString(m / 100) + [DigitChar(m % 100 / 10), DigitChar(m % 10)])
    ensures DigitsValue(NatToString(m / 100) + [DigitChar(m % 100 / 10), DigitChar(m % 10)]) == m
  {
    var whole := NatToString(m / 100);
    var d1 := DigitChar(m % 100 / 10);
    var d2 := DigitChar(m % 10);
    DigitsValueSnoc(whole, d1);
    DigitsValueSnoc(whole + [d1], d2);
    assert whole + [d1, d2] == whole + [d1] + [d2];
    assert (m / 100 * 10 + m % 100 / 10) * 10 + m % 10 == m;
  }

  /** The characters Python's `str.isspace` accepts, which `str.strip`
      removes: the ASCII controls tab to carriage return and file to unit
      separator, the space, next-line, no-break space and the Unicode
      space and line/paragraph separators. */
  predicate IsSpace(c: char) {
    || '\t' <= c <= '\r'
    || '\U{1c}' <= c <= '\U{1f}'
    || c == ' ' || c == '\U{85}' || c == '\U{a0}' || c == '\U{1680}'
    || '\U{2000}' <= c <= '\U{200a}'
    || c == '\U{2028}' || c == '\U{2029}' || c == '\U{202f}' || c == '\U{205f}' || c == '\U{3000}'
  }

  predicate AllSpaces(s: string) {
    forall i | 0 <= i < |s| :: IsSpace(s[i])
  }

  /** `s` without its leading whitespace. */
  function StripStart(s: string): (r: string)
    ensures |r| <= |s| && r == s[|s| - |r|..]
    ensures forall i | 0 <= i < |s| - |r| :: IsSpace(s[i])
    ensures r != [] ==> !IsSpace(r[0])
    decreases |s|
  {
    if |s| > 0 && IsSpace(s[0]) then
      var r := StripStart(s[1..]);
      assert r == s[|s| - |r|..] && forall i | 0 <= i < |s| - |r| :: IsSpace(s[i]) by {
        assert s[|s| - |r|..] == s[1..][|s| - 1 - |r|..];
        forall i | 1 <= i < |s| - |r| ensures IsSpace(s[i]) { assert s[i] == s[1..][i - 1]; }
      }
      r
    else s
  }

  /** `s` without its trailing whitespace. */
  function StripEnd(s: string): (r: string)
    ensures |r| <= |s| && r == s[..|r|]
    ensures forall i | |r| <= i < |s| :: IsSpace(s[i])
    ensures r != [] ==> !IsSpace(r[|r| - 1])
    decreases |s|
  {
    if |s| > 0 && IsSpace(s[|s| - 1]) then
      var r := StripEnd(s[..|s| - 1]);
      assert r == s[..|r|] && forall i | |r| <= i < |s| :: IsSpace(s[i]) by {
        assert s[..|r|] == s[..|s| - 1][..|r|];
        forall i | |r| <= i < |s| - 1 ensures IsSpace(s[i]) { assert s[i] == s[..|s| - 1][i]; }
      }
      r
    else s
  }

  /** Python's `str.strip()` with no argument. */
  function Strip(s: string): (r: string)
    ensures |r| <= |s|
    ensures r != [] ==> !IsSpace(r[0]) && !IsSpace(r[|r| - 1])
  {
    StripEnd(StripStart(s))
  }

  lemma {:induction false} StripStartPadded(pre: string, rest: string)
    requires AllSpaces(pre)
    requires rest == [] || !IsSpace(rest[0])
    ensures StripStart(pre + rest) == rest
    decreases |pre|
  {
    if pre == [] {
      assert pre + rest == rest;
    } else {
      assert (pre + rest)[1..] == pre[1..] + rest;
      StripStartPadded(pre[1..], rest);
    }
  }

  lemma {:induction false} StripEndPadded(rest: string, post: string)
    requires AllSpaces(post)
    requires rest == [] || !IsSpace(rest[|rest| - 1])
    ensures StripEnd(rest + post) == rest
    decreases |post|
  {
    if post == [] {
      assert rest + post == rest;
    } else {
      assert (rest + post)[..|rest + post| - 1] == rest + post[..|post| - 1];
      StripEndPadded(rest, post[..|post| - 1]);
    }
  }

  /** Strip removes exactly the surrounding whitespace: a text with no
      whitespace at either end comes back unchanged from any padding. */
  lemma StripOfPadded(pre: string, s: string, post: string)
    requires AllSpaces(pre) && AllSpaces(post)
    requires s != [] ==> !IsSpace(s[0]) && !IsSpace(s[|s| - 1])
    ensures Strip(pre + s + post) == s
  {
    assert pre + s + post == pre + (s + post);
    if s == [] {
      assert pre + s + post == pre + post;
    } else {
      StripStartPadded(pre, s + post);
      StripEndPadded(s, post);
    }
  }

  /** Stripping twice is stripping once. */
  lemma StripIdempotent(s: string)
    ensures Strip(Strip(s)) == Strip(s)
  {
    StripOfPadded([], Strip(s), []);
    assert [] + Strip(s) + [] == Strip(s);
  }

  /** `u` is a point, then zeros, then whitespace: a text the pattern
      `\.0*\s*` matches in full. */
  predicate ZeroFractionSuffix(u: string) {
    && |u| >= 1 && u[0] == '.'
    && forall i | 1 <= i < 1 + |StripEnd(u[1..])| :: u[i] == '0'
  }

  /** `re.sub(r"\.0*\s*$", "", s)`: the leftmost position from which the
      rest of `s` is a zero fraction is cut off, with everything after it. */
  function DropZeroFraction(s: string): (t: string)
    ensures |t| <= |s| && t == s[..|t|]
    ensures t != s ==> ZeroFractionSuffix(s[|t|..])
    ensures forall p | 0 <= p < |t| :: !ZeroFractionSuffix(s[p..])
    decreases |s|
  {
    if |s| == 0 then s
    else if ZeroFractionSuffix(s) then []
    else
      var rest := DropZeroFraction(s[1..]);
      assert forall p | 1 <= p <= |s| :: s[p..] == s[1..][p - 1..];
      [s[0]] + rest
  }

  /** Text without a point is left alone. */
  lemma DropZeroFractionKeeps(s: string)
    requires '.' !in s
    ensures DropZeroFraction(s) == s
  {
    var t := DropZeroFraction(s);
  }

  /** Text without a point followed by a zero fraction loses exactly the
      fraction. */
  lemma DropZeroFractionCuts(a: string, u: string)
    requires '.' !in a && ZeroFractionSuffix(u)
    ensures DropZeroFraction(a + u) == a
  {
    var s := a + u;
    var t := DropZeroFraction(s);
    assert s[|a|..] == u;
    assert s[..|a|] == a;
  }

  /** A text no suffix of which is a zero fraction is left alone. */
  lemma DropZeroFractionNoMatch(s: string)
    requires forall p | 0 <= p < |s| :: !ZeroFractionSuffix(s[p..])
    ensures DropZeroFraction(s) == s
  {
  }

  /** A point followed by text ending in a non-zero, non-space character is
      not a zero fraction. */
  lemma NotZeroFraction(u: string)
    requires |u| >= 2 && u[|u| - 1] != '0' && !IsSpace(u[|u| - 1])
    ensures !ZeroFractionSuffix(u)
  {
    var v := u[1..];
    assert v[|v| - 1] == u[|u| - 1];
    assert StripEnd(v) == v;
  }

  /** A text with no whitespace at its ends strips to itself. */
  lemma StripUnpadded(s: string)
    requires s != [] ==> !IsSpace(s[0]) && !IsSpace(s[|s| - 1])
    ensures Strip(s) == s
  {
    StripOfPadded([], s, []);
    assert [] + s + [] == s;
  }
}

=== FILE: walkthrough.dfy ===
/** The grading flow end to end: an instructor submits grade cells through
    the course page and the student's dashboard reports the resulting final
    grade. */
module Walkthrough {
  import opened Wrappers
  import opened Text
  import opened Schema
  import opened GradeEntry
  import opened PostData
  import opened ManageCourse
  import opened FinalGrade

  const Teacher: UserId := 1
  const Pupil: UserId := 2
  const Cse311: CourseId := 1
  const Midterm := Component(1, Cse311, "Midterm", 40)
  const Final := Component(2, Cse311, "Final", 60)

  /** CSE311 with Midterm 40% and Final 60%, one instructor, one student,
      no grades yet. */
  function Cse311Store(): (st: Store)
    ensures Valid(st)
  {
    Store({Teacher, Pupil},
          map[Teacher := "instructor", Pupil := "student"],
          map[Cse311 := Course("CSE311", "Software Engineering", {Teacher}, {Pupil})],
          [Midterm, Final],
          map[],
          3, 3)
  }

  lemma Cse311Components(st: Store)
    requires st.components == [Midterm, Final]
    ensures ComponentsOf(st, Cse311) == [Midterm, Final]
  {
    var p := (c: Component) => c.course == Cse311;
    assert [Midterm, Final][1..] == [Final];
    assert [Final][1..] == [];
    assert Filter([Final], p) == [Final];
  }

  lemma ScoreLiterals()
    ensures FormatHundredths(8000) == "80.00" && FormatHundredths(9000) == "90.00"
  {
    assert DigitChar(0) == '0' && DigitChar(8) == '8' && DigitChar(9) == '9';
    assert NatToString(80) == NatToString(8) + [DigitChar(0)] == "80";
    assert NatToString(90) == NatToString(9) + [DigitChar(0)] == "90";
  }

  /** The store after the Midterm is scored 80. */
  function AfterMidterm(): Store {
    Cse311Store().(grades := map[(Pupil, Midterm.id) := Some(8000)])
  }

  /** The store after the Final is also scored 90. */
  function AfterFinal(): Store {
    AfterMidterm().(grades := AfterMidterm().grades[(Pupil, Final.id) := Some(9000)])
  }

  lemma MidtermSubmission()
    ensures SubmitGrades(Cse311Store(), Teacher, Cse311, [(GradeFieldName(Pupil, Midterm.id), "80.00")])
            == Saved(AfterMidterm())
  {
    ScoreLiterals();
    SubmitTypedCell(Cse311Store(), Teacher, Cse311, Pupil, Midterm, 8000);
    assert Cse311Store().grades[(Pupil, Midterm.id) := Some(8000)] == map[(Pupil, Midterm.id) := Some(8000)];
  }

  lemma FinalSubmission()
    ensures SubmitGrades(AfterMidterm(), Teacher, Cse311, [(GradeFieldName(Pupil, Final.id), "90.00")])
            == Saved(AfterFinal())
  {
    ScoreLiterals();
    SubmitTypedCell(AfterMidterm(), Teacher, Cse311, Pupil, Final, 9000);
  }

  lemma Cse311Entries(st: Store)
    requires st.components == [Midterm, Final]
    ensures ReportOf(st, Pupil, Cse311).entries == [EntryFor(st, Pupil, Midterm), EntryFor(st, Pupil, Final)]
  {
    Cse311Components(st);
  }

  lemma MidtermReport()
    ensures ReportOf(AfterMidterm(), Pupil, Cse311).finalGrade == 3200
  {
    var st := AfterMidterm();
    Cse311Entries(st);
    assert EntryFor(st, Pupil, Midterm) == ReportEntry("Midterm", 40, Some(8000));
    assert EntryFor(st, Pupil, Final) == ReportEntry("Final", 60, None);
    WorkedExamples();
  }

  lemma FinalReport()
    ensures ReportOf(AfterFinal(), Pupil, Cse311).finalGrade == 8600
  {
    var st := AfterFinal();
    Cse311Entries(st);
    assert EntryFor(st, Pupil, Midterm) == ReportEntry("Midterm", 40, Some(8000));
    assert EntryFor(st, Pupil, Final) == ReportEntry("Final", 60, Some(9000));
    WorkedExamples();
  }

  /** The grade form as the page posts it: its submit button and the cell. */
  lemma GradeFormPosted(st: Store, student: nat, component: nat, value: string)
    requires InstructorCourse(st, Teacher, Cse311).Some?
    ensures ManagePost(st, Teacher, Cse311, [("submit_grades", ""), (GradeFieldName(student, component), value)])
            == SubmitGrades(st, Teacher, Cse311, [(GradeFieldName(student, component), value)])
  {
    var cell := (GradeFieldName(student, component), value);
    NamesOfCons(cell, []);
    assert [cell] + [] == [cell];
    assert cell.0[0] == 'g';
    assert [("submit_grades", ""), cell] == [("submit_grades", "")] + [cell];
    SubmitButtonIgnored(st, Teacher, Cse311, [cell]);
  }

  /** Posting 80 for the Midterm gives a final grade of 32.00; posting 90
      for the Final afterwards gives 86.00. */
  lemma MidtermThenFinal()
    ensures var first := ManagePost(Cse311Store(), Teacher, Cse311,
                                    [("submit_grades", ""), (GradeFieldName(Pupil, Midterm.id), "80.00")]);
      && first.Saved?
      && ReportOf(first.store, Pupil, Cse311).finalGrade == 3200
      && var second := ManagePost(first.store, Teacher, Cse311,
                                  [("submit_grades", ""), (GradeFieldName(Pupil, Final.id), "90.00")]);
      && second.Saved?
      && ReportOf(second.store, Pupil, Cse311).finalGrade == 8600
  {
    GradeFormPosted(Cse311Store(), Pupil, Midterm.id, "80.00");
    MidtermSubmission();
    MidtermReport();
    GradeFormPosted(AfterMidterm(), Pupil, Final.id, "90.00");
    FinalSubmission();
    FinalReport();
  }
}

=== FILE: wrappers.dfy ===
/** The optional value used throughout the model for "no row", "no profile"
    and "did not parse". */
module Wrappers {
  datatype Option<+T> = None | Some(value: T)
}
